=== FILE: README.md ===
# Pac-Man raycaster: gameplay model

A Dafny model of the gameplay core of a small Pac-Man game, written in Rust on raylib. The player walks a first-person raycast view of a 21×25 maze, eats pellets and power pellets, and is chased by one or two ghosts. Rendering and I/O are removed. The model covers:

- **The maze grid** (`Grid`, src/maze.rs). It covers the ASCII layout and its parse into cells, the total cell query, pellet collection with its two counters, and the level-complete test. It also covers the index arithmetic of the pixel lookup.
- **The player** (`Actor`, src/player.rs). It covers the spawn at a cell centre, the collision probe that truncates a world coordinate to a cell index, the speed and turn rules, and the mover. The mover commits the X step and then the Y step, each only onto a clear position.
- **The ray march** (`Ray`, src/ray.rs). It covers fixed half-unit steps until the probe leaves the grid, meets a Wall or passes the distance cap, and the texture coordinate of the hit. It is given as a recursive reference definition (`March`) and as the source's loop (`CastRay`), which is proved equal to it.
- **The game state** (`Game`, src/game_state.rs). It covers the five modes; the score, high-score and extra-life rules; lives; power mode; the time-based bonus multiplier; the level and time bonuses; and the key handling of the state machine.
- **The main loop's rules** (`GameLoop`, src/main.rs). It covers menu navigation, the difficulty cycle and speeds, and ghost spawning. It covers how a pellet reward feeds score and power mode, the ghosts' chase step and catch rule, and the clamp of the fallback wall strip. It also covers one whole frame of the loop (`FrameWith`), both as written and with the two corrections of the findings below.

Conventions:

- Single- and double-precision floats are modelled as `real`.
- Rust's casts are written out (`Common.ToUsize`, `Common.ToI32`, `Common.ToU32`), as are `fract().abs()` (`Common.FracAbs`) and `signum` (`Common.Signum`).
- Clock readings (`now`, `frameTime`) and the player's heading as (cos, sin) are parameters.
- Key presses arrive as a `Keys` record.
- `u32` counters are `nat`.

Three behaviours of the source are modelled as written and worth knowing:

- The player starts at cell (10, 15), which holds a pellet. The `P` marker in the layout is at (9, 15) and is only parsed as Path.
- Every chase step first overwrites a ghost's speed with three quarters of the player's speed. So the difficulty's base speed never affects how ghosts move (`GameLoop.ChaseIgnoresStoredSpeed`).
- A ghost catch sets mode GameOver but no game-over time. The five-second restart, which waits for that time, is therefore never armed by a catch.

## Model

| member | source | states |
|---|---|---|
| Common.ToUsize | src/player.rs:65-66 | `as usize` on a coordinate: negatives give 0, otherwise the result is the whole part of the value |
| Common.ToI32 | src/main.rs:295-296 | `as i32`: every value at or beyond an end of the i32 range gives that end, and inside the range the value is rounded toward zero |
| Common.ToU32 | src/game_state.rs:104 | `as u32`: negatives give 0, values at or past u32::MAX give u32::MAX, and in between the whole part of the value |
| Common.FracAbs | src/ray.rs:57 | `fract().abs()` lies in [0, 1) and equals the fractional part of the absolute value |
| Common.Signum | src/main.rs:197 | `signum` is ±1, negative exactly for negative inputs, so a zero distance steps by +speed |
| Grid.CellOfChar | src/maze.rs:54-66 | `#` is Wall, `.` is Pellet, `o` is PowerPellet, and every other character is Path, each as an if-and-only-if |
| Grid.RowPelletsUpdate | src/maze.rs:56-62 | writing one cell of a row changes the row's pellet count by exactly the change at that cell |
| Grid.GridPelletsUpdate | src/maze.rs:56-62 | writing one cell of the grid changes the grid's pellet count by exactly the change at that cell |
| Grid.GridPelletsZero | src/maze.rs:106-108 | the grid's pellet count is 0 exactly when no Pellet or PowerPellet cell is left |
| Grid.Parse | src/maze.rs:22-76 | a built maze is 25 rows of 21 cells, each cell is the layout's character mapped (Wall where the layout has none), nothing is collected, and the total equals the pellet cells |
| Grid.NewMaze | src/maze.rs:22-76 | the constructor's nested loop over the layout yields exactly the declarative `Parse` of that layout |
| Grid.GetCell | src/maze.rs:78-84 | the cell query is total: in range it is the grid's cell, out of range it is Wall |
| Grid.CollectPellet | src/maze.rs:86-104 | Pellet gives 10 and PowerPellet gives 50, the cell becomes Path and one more pellet is counted; any other cell or index gives nothing and changes nothing; every other cell is untouched; walls and the total never change; pellet conservation is kept |
| Grid.CollectIdempotent | src/maze.rs:89-99 | collecting the same cell twice yields nothing the second time and leaves the maze as after the first |
| Grid.LevelCompleteIffNoPellets | src/maze.rs:106-108 | on a conserving maze the level is complete exactly when no pellet cell is left |
| Grid.IsLevelComplete | src/maze.rs:106-108 | the level is complete when the collected counter reaches the total, which on a conserving maze is exactly when no Pellet or PowerPellet cell is left |
| Grid.FreshMazeUnreachedWalls | src/maze.rs:23 | rows 21 to 24 and the last cell of the short row 15 are never written and stay Wall |
| Grid.FreshMazeCells | src/maze.rs:29-43 | the fresh maze has pellets at (1, 1) and (2, 1), a power pellet at (1, 2) and a pellet at the player's start cell (10, 15) |
| Grid.FreshMazeNotComplete | src/maze.rs:106-108 | a fresh maze is not complete |
| Grid.FreshMazeGhostHouse | src/maze.rs:37-41 | the fresh maze has open floor at (10, 9), a pellet at (10, 11) and a Wall at (10, 13) |
| Grid.FreshMazeSurvivesOneCollection | src/maze.rs:86-108 | whichever cell is collected once from a fresh maze, the level is still not complete |
| Grid.PixelIndexInBounds | src/maze.rs:121-127 | for an in-range pixel the four bytes at `(y*width+x)*4` lie within `width*height*4` |
| Grid.PixelColor | src/maze.rs:111-133 | outside the image the colour is (0, 0, 255, 255); inside it is the four bytes at the pixel's index, which always lie in the buffer |
| Actor.CellCoord | src/player.rs:65-66 | a coordinate maps to the cell whose span contains it, and every negative coordinate maps to 0 |
| Actor.CellCoordOfCentre | src/player.rs:13-15 | the centre of cell g maps back to g |
| Actor.CellCentre | src/player.rs:14-15 | the centre of cell g is g·32 + 16, the same value as the float form of src/main.rs:62-65 |
| Actor.Spawn | src/player.rs:13-22 | a new player stands at (32·gx + 16, 32·gy + 16), the centre of its cell, whose probe maps back to the cell, facing 0, at speed 2.5 and turn rate 0.05 |
| Actor.Collides | src/player.rs:64-73 | the probe collides exactly when the cell query at the probed indices is Wall, and always when the indices are out of range |
| Actor.CollidesSameWalls | src/player.rs:72 | two grids with the same walls agree on every probe |
| Actor.MoveSpeed | src/player.rs:27-31 | the speed is 3.75 in power mode and 2.5 otherwise |
| Actor.Turn | src/player.rs:34-39 | D turns by +rate, A by -rate, both together cancel, and nothing else changes |
| Actor.Direction | src/player.rs:41-48 | W gives the heading, S its opposite, both or neither give the zero vector |
| Actor.Move | src/player.rs:50-61 | with a zero direction the position is unchanged; X moves only onto a clear (next x, old y) and always does when that is clear; then Y likewise from the current x |
| Actor.MoveStaysClear | src/player.rs:55-60 | a move from a clear position ends on a clear position |
| Actor.WallSlide | src/player.rs:55-60 | when the X target collides and the Y target does not, only Y changes |
| Actor.ProcessEvents | src/player.rs:25-62 | the player takes the power-mode speed, the turned angle and the axis-separated move; without W or S (or with both) the position is unchanged; a clear player stays clear |
| Ray.TextureCoord | src/ray.rs:44-57 | the texture coordinate lies in [0, 1), sampling the y offset when the x offset is larger and the x offset otherwise |
| Ray.March | src/ray.rs:19-42 | the march from step n ends at a distance between step n's and 1000.5, the first step past the cap, with a texture coordinate in [0, 1) |
| Ray.MarchFacts | src/ray.rs:12-42 | the march ends at a whole number of half steps, in one of three ways: leaving the grid reports the probe's off-grid cell; meeting a Wall reports that in-range Wall cell; passing the 1000 cap reports (0, 0), the initial values; every earlier probe is clear |
| Ray.CastRay | src/ray.rs:11-65 | the source's loop always ends, computes exactly the march from the first step, at a distance in [0.5, 1000.5], with a texture coordinate in [0, 1) |
| Game.NewGame | src/game_state.rs:29-45 | a new game is Playing at level 1 with 3 lives, no score, no level or completion time, power off with timer 0 and a duration of 10 s, multiplier 1, no game-over time, and satisfies the game invariant |
| Game.BonusFor | src/game_state.rs:171-181 | the multiplier is 3 exactly below 30 s, 1 exactly from 60 s, and 2 in between |
| Game.BonusNonIncreasing | src/game_state.rs:171-181 | the time-based multiplier never grows with time |
| Game.UpdateBonusMultiplier | src/game_state.rs:171-181 | with power mode off the multiplier follows the level time; with power mode on it is untouched; nothing else changes |
| Game.ActivatePowerMode | src/game_state.rs:75-80 | power mode is on with the full duration and multiplier 2, and nothing else changes |
| Game.DeactivatePowerMode | src/game_state.rs:82-86 | power mode is off with timer 0 and multiplier 1, and nothing else changes |
| Game.Update | src/game_state.rs:47-59 | the level time is now minus the level start; power mode runs down by the frame time and switches off once its timer is at or below 0; the multiplier is refreshed; no other field changes; the invariant is kept |
| Game.AddScore | src/game_state.rs:61-73 | the score grows by points times the multiplier; the high score is the maximum of the old high score and the new score; one extra life is granted exactly when the new score is a positive multiple of 10000 |
| Game.LoseLife | src/game_state.rs:88-98 | lives drop by one but never below 0; at 0 lives the mode is GameOver stamped with now; otherwise mode and stamp are kept |
| Game.TimeBonus | src/game_state.rs:104 | the time bonus is the whole part of ten times the seconds left of 120, 0 after 120 s, at most 1200 |
| Game.TimeBonusNonIncreasing | src/game_state.rs:104 | the time bonus never grows with time |
| Game.CompleteLevel | src/game_state.rs:100-112 | the mode is LevelComplete stamped with now and the score grows by (level × 1000 + time bonus) × multiplier through the score rule; the level is kept |
| Game.NextLevel | src/game_state.rs:114-121 | the level goes up by one, the mode is Playing, the level clock restarts and power mode is off with multiplier 1; no other field changes |
| Game.ResetGame | src/game_state.rs:123-133 | the game is a new game at now, except that the high score, the last completion time and the power duration are kept |
| Game.PauseGame | src/game_state.rs:135-141 | Playing and Paused swap, every other mode is kept, and nothing else changes |
| Game.PauseTwice | src/game_state.rs:135-141 | pausing twice is the identity |
| Game.HandleInput | src/game_state.rs:246-268 | Menu and GameOver ignore input; P toggles pause from Playing or Paused; SPACE from LevelComplete starts the next level; any other key or mode leaves the whole state unchanged |
| GameLoop.NextDifficulty | src/main.rs:156-162 | RIGHT moves one place forward in the Easy, Medium, Hard cycle |
| GameLoop.PrevDifficulty | src/main.rs:149-155 | LEFT moves one place back in the cycle |
| GameLoop.DifficultyCycle | src/main.rs:149-162 | LEFT undoes RIGHT and RIGHT undoes LEFT; three presses in one direction give the identity |
| GameLoop.GhostBaseSpeed | src/main.rs:53-57 | the base speed is 1, 2, 3 for Easy, Medium, Hard |
| GameLoop.HarderIsFaster | src/main.rs:53-57 | each step from Easy to Medium to Hard adds one unit of speed |
| GameLoop.CursorDown | src/main.rs:134-136 | DOWN moves the cursor one line down within the three lines, wrapping from the last to the first |
| GameLoop.CursorUp | src/main.rs:137-139 | UP moves the cursor one line up within the three lines, wrapping from the first to the last |
| GameLoop.CursorRoundTrip | src/main.rs:134-139 | UP after DOWN and DOWN after UP restore the cursor |
| GameLoop.MenuInput | src/main.rs:134-163 | DOWN and UP move the cursor (both together cancel); the menu keeps one or two ghosts and a cursor on one of three lines; LEFT/1 and RIGHT/2 set the ghost count only on line 0 and nothing else changes it; LEFT and RIGHT walk the difficulty cycle only on line 1 |
| GameLoop.SpawnGhosts | src/main.rs:42-72 | the first n spawn cells each give a ghost at that cell's centre, with the difficulty's base speed |
| GameLoop.ChaseStep | src/main.rs:192-224 | the ghost steps along the axis of the larger distance if that is clear, otherwise along the other axis if that is clear, otherwise stays; at most one coordinate changes; a moved ghost is on a clear position; its speed becomes the chase speed |
| GameLoop.ChaseStaysClear | src/main.rs:196-224 | a ghost that is not in a wall never steps into one |
| GameLoop.ChaseIgnoresStoredSpeed | src/main.rs:192 | the chase step does not depend on the ghost's stored speed |
| GameLoop.ChaseAll | src/main.rs:191-228 | every ghost takes its own chase step, and a catch is reported exactly when some ghost ends within half a cell of the player on both axes |
| GameLoop.Catches | src/main.rs:225-227 | a ghost catches the player exactly when the player stands strictly inside the 32×32 square centred on the ghost |
| GameLoop.CatchAtCentre | src/main.rs:225-227 | a ghost at a cell's centre catches exactly the players strictly inside that cell's square, so a caught player stands in the ghost's cell |
| GameLoop.RewardPellet | src/main.rs:178-184 | no reward changes nothing; a reward goes through the score rule (score, high score and extra life); power mode ends up on exactly when it was on or the reward was 50, and only a 50 changes the power timer and the multiplier; no other field changes |
| GameLoop.StripBounds | src/main.rs:295-296 | the strip lies within the screen, spans the middle row, is never taller than the wall, and when the wall fits it is less than two rows short of it; a wall at least one row taller than the screen fills the whole column, rows 0 to the screen height |
| GameLoop.InitialWorld | src/main.rs:93-115 | the start-up world is the fresh maze, the player at the centre of (10, 15), no ghosts, the menu at 2 ghosts, Medium and line 0, and a new game switched to Menu; it satisfies the world invariant |
| GameLoop.FreshLevel | src/main.rs:164-168 | a fresh level is the fresh maze, the player at the centre of (10, 15), clear of walls, and the menu's ghosts at the spawn cells |
| GameLoop.MenuFrame | src/main.rs:133-170 | the menu takes this frame's keys; ENTER rebuilds maze, player and ghosts and switches the game to Playing with no other change to the game state, so the level clock keeps running from start-up; without ENTER only the menu changes |
| GameLoop.AwardCollection | src/main.rs:178-188 | the reward goes through the score rule; when the level is done, the level bonus and time bonus are then added through `complete_level` and the mode becomes LevelComplete stamped with now; otherwise the game is exactly the reward's result; the level and game-over time are kept; the invariant is kept |
| GameLoop.CollectPhase | src/main.rs:173-188 | the player moves, the cell under the player is collected, walls never change, pellets are conserved, and a clear player stays clear |
| GameLoop.ChasePhase | src/main.rs:191-228 | all ghosts chase; a catch sets GameOver and nothing else in the game state; without a catch the game state is unchanged; ghosts clear of walls stay clear |
| GameLoop.PlayFrame | src/main.rs:172-228 | the player moves and collects on the old maze, the ghosts then chase the moved player on the collected maze; the game is the collection's award, with only the mode set to GameOver on a catch; walls, menu and level are kept |
| GameLoop.StateStage | src/main.rs:118-119 | the clock update and the state machine's keys are applied; except for a corrected SPACE on the level-complete screen, which rebuilds maze, player and ghosts, nothing else changes; the world invariant is kept |
| GameLoop.MenuStage | src/main.rs:133-170 | outside mode Menu the world is untouched; in Menu it is exactly the menu frame (this frame's menu input, and ENTER's fresh level); the world invariant is kept, and with the corrected cells no ghost is in a wall |
| GameLoop.PlayStage | src/main.rs:172-228 | outside mode Playing the world is untouched; in Playing it is exactly the playing frame; the world invariant and ghost clearance are kept |
| GameLoop.PlayFramePreserves | src/main.rs:172-228 | a playing frame keeps the world invariant and keeps every ghost out of the walls |
| GameLoop.SpawnedGhostsClear | src/main.rs:49-52 | ghosts spawned at the corrected cells start outside the walls |
| GameLoop.FreshLevelValid | src/main.rs:164-168 | a fresh level satisfies the world invariant, and with the corrected cells its ghosts are clear |
| GameLoop.FrameWith | src/main.rs:117-235 | in one frame the menu changes only in mode Menu, by that frame's menu input; GameOver, and Paused without P, change nothing except what `update` does (the level time, the power timer and the multiplier); Playing without P runs exactly one playing frame after `update`; the level rises only by SPACE on the level-complete screen, by one; every frame, as written or corrected, keeps the maze conserving, the menu valid, the score within the high score, the multiplier in 1..3 and the player out of the walls; corrected, no ghost ever enters a wall |
| GameLoop.RedGhostSpawnsInWall | src/main.rs:50 | as written, the first ghost spawns inside a Wall cell |
| GameLoop.RedGhostStuck | src/main.rs:192-224 | as written, at chase speeds under half a cell the first ghost never leaves its spawn point |
| GameLoop.RedGhostNeverCatches | src/main.rs:225-227 | a ghost at the spawn point (10, 13) can never catch a player who is not in a wall |
| GameLoop.NextLevelCompletesAtOnce | src/main.rs:172-188 | as written, SPACE on the level-complete screen moves to the next level but leaves the finished maze, so the same frame completes the level again and adds at least the new level's 1000-per-level bonus to the score |
| GameLoop.NextLevelIsPlayable | src/main.rs:229-235 | corrected, SPACE on the level-complete screen gives a playable next level that is not complete |
| GameLoop.PlayFreshMaze | src/main.rs:172-188 | a playing frame on a fresh maze keeps the level, does not complete it, and collects at most one pellet |

## Left out

- Drawing and windowing are left out, since they have no checkable result. This covers the 3D view, the coin sprites, the ghost models, the minimap and the heads-up display (`draw_ui`).
- The column projector's trigonometry is left out: the ray angle sweep, the fisheye correction, the wall height and the texture column. Of it, only the integer strip clamp is modelled (`GameLoop.StripBounds`).
- Texture and asset loading (src/textures.rs) is not part of this model. The raw image buffer is modelled as a `seq` of bytes.
- The five-second restart after a game over is left out. It relaunches the executable and exits, which is process control.
- The input block after the main loop is left out, because it only runs once the window has closed.
- `cos`/`sin`: the heading is a parameter of unit length, and `normalized()` of a unit vector is itself.
- Float rounding is left out: `f32`/`f64` are reals. So is NaN, which no modelled input produces.
- Common.ToUsize: does not model saturation at `usize::MAX`, because no coordinate of the game reaches it.
- GameLoop.StripBounds: does not model the i32 overflow of `screen_height / 2 ± half` (a panic in debug builds, a wrap in release builds) once the wall height reaches about 2^32. The game never gets near it: the wall height is 32 × screen height ÷ corrected distance, the march distance is at least 0.5, and the fisheye factor is at least cos 30°, so wall heights stay below 74 × 800, about 6·10^4 (src/main.rs:84, 264-267).
- Game.AddScore: does not model `u32` wrap-around of the score or of `points * bonus_multiplier`, because scores stay far below 2^32 in play.
- Game.CompleteLevel: does not model `u32` wrap-around of `level * 1000`, for the same reason.
- Grid.CollectPellet: does not model `u32` wrap-around of the collected counter; a maze has 525 cells.
- The read-only queries `is_playing`, `is_paused`, `is_game_over`, `is_level_complete`, `get_power_mode_remaining` and `get_level_time` are field reads. The model tests the fields directly.

## Findings

| source | as written | input that shows it | evidently intended | confidence | as-written member | corrected member |
|---|---|---|---|---|---|---|
| src/main.rs:50 | the red ghost spawns at cell (10, 13), which the layout makes a Wall; at chase speeds below 16 both of its candidate steps stay inside that cell, so it never moves and can never catch the player | start a game with one or two ghosts; the ghost at (336, 432) collides and stays there every frame | spawn inside the ghost house, e.g. the open cell (10, 9) | high, by proof over the layout text; not executed | GameLoop.RedGhostStuck | GameLoop.SpawnedGhostsClear |
| src/main.rs:229-235 | the rebuild of maze, player and ghosts needs `is_playing()` inside the `is_level_complete()` branch, which cannot hold; so the loop never rebuilds the maze, the player or the ghosts after SPACE; SPACE moves to the next level on the finished maze, and the same frame completes the level again, adding another level bonus | finish a level, press SPACE: level + 1, mode LevelComplete again, maze still complete | rebuild the level when SPACE leaves LevelComplete | high, by proof; not executed | GameLoop.NextLevelCompletesAtOnce | GameLoop.NextLevelIsPlayable |

=== FILE: actor.dfy ===
/** The player (src/player.rs): spawning at a cell centre, the collision
    probe that maps a continuous position to a grid cell, and the
    axis-separated mover that commits the X step and then the Y step, each
    only onto a position that does not collide, so that a diagonal move
    slides along a wall. */
module Actor {
  import opened Common
  import opened Grid

  /** Linear speed without and with power mode, and the turn per frame. */
  const BaseSpeed: real := 2.5
  const PowerSpeedFactor: real := 1.5
  const RotationSpeed: real := 0.05

  datatype Player = Player(pos: Vec2, angle: real, speed: real, rotationSpeed: real)

  /** Which of W, S, A and D are held this frame. */
  datatype MoveKeys = MoveKeys(forward: bool, back: bool, turnLeft: bool, turnRight: bool)

  /** The cell index of a world coordinate: `(v / CELL_SIZE as f32) as usize`,
      so every negative coordinate lands in index 0. */
  function CellCoord(v: real): (i: nat)
    ensures v <= 0.0 ==> i == 0
    ensures 0.0 <= v ==> (i * CellSize) as real <= v < ((i + 1) * CellSize) as real
  {
    ToUsize(v / CellSize as real)
  }

  /** The world coordinate of the centre of cell index g. `Player::new`
      computes it in integers and `spawn_ghosts` in floats; both give
      g * 32 + 16. */
  function CellCentre(g: nat): (c: real)
    ensures c == (g * CellSize) as real + (CellSize as real) / 2.0
  {
    (g * CellSize + CellSize / 2) as real
  }

  lemma CellCoordOfCentre(g: nat)
    ensures CellCoord(CellCentre(g)) == g
  {
  }

  /** `Player::new`: the player stands at the centre of cell (gx, gy),
      facing angle 0, at the base speed; the probe maps that position back
      to (gx, gy). */
  function Spawn(gx: nat, gy: nat): (p: Player)
    ensures p.pos == Vec2(CellCentre(gx), CellCentre(gy))
    ensures CellCoord(p.pos.x) == gx && CellCoord(p.pos.y) == gy
    ensures p.angle == 0.0 && p.speed == BaseSpeed && p.rotationSpeed == RotationSpeed
  {
    CellCoordOfCentre(gx);
    CellCoordOfCentre(gy);
    Player(Vec2(CellCentre(gx), CellCentre(gy)), 0.0, BaseSpeed, RotationSpeed)
  }

  /** `check_collision`: true when the probed cell lies outside the grid,
      and otherwise exactly when that cell is Wall. It agrees with
      `get_cell` on the probed indices. */
  function Collides(m: Maze, x: real, y: real): (hit: bool)
    requires Shaped(m.grid)
    ensures hit <==> GetCell(m, CellCoord(x), CellCoord(y)) == Wall
    ensures Width <= CellCoord(x) || Height <= CellCoord(y) ==> hit
  {
    var gx := CellCoord(x);
    var gy := CellCoord(y);
    if gy >= |m.grid| || gx >= |m.grid[0]| then true
    else m.grid[gy][gx] == Wall
  }

  /** Collision only looks at Wall cells, so two grids with the same walls
      agree on every probe. */
  lemma CollidesSameWalls(a: Maze, b: Maze, x: real, y: real)
    requires Shaped(a.grid) && Shaped(b.grid) && SameWalls(a.grid, b.grid)
    ensures Collides(a, x, y) == Collides(b, x, y)
  {
  }

  /** The speed rule: half as fast again in power mode. */
  function MoveSpeed(powerActive: bool): (s: real)
    ensures !powerActive ==> s == BaseSpeed
    ensures powerActive ==> s == BaseSpeed * PowerSpeedFactor && s == 3.75
  {
    if powerActive then BaseSpeed * PowerSpeedFactor else BaseSpeed
  }

  /** D turns by +rotation speed and A by -rotation speed; both cancel. */
  function Turn(p: Player, keys: MoveKeys): (r: Player)
    ensures r.(angle := p.angle) == p
    ensures keys.turnLeft == keys.turnRight ==> r.angle == p.angle
    ensures keys.turnRight && !keys.turnLeft ==> r.angle == p.angle + p.rotationSpeed
    ensures keys.turnLeft && !keys.turnRight ==> r.angle == p.angle - p.rotationSpeed
  {
    var a1 := if keys.turnRight then p.angle + p.rotationSpeed else p.angle;
    var a2 := if keys.turnLeft then a1 - p.rotationSpeed else a1;
    p.(angle := a2)
  }

  /** The unit movement direction: `heading` is (cos, sin) of the turned
      angle; W adds it and S subtracts it, so holding both or neither gives
      the zero vector. */
  function Direction(keys: MoveKeys, heading: Vec2): (d: Vec2)
    ensures keys.forward == keys.back ==> d == Origin
    ensures keys.forward && !keys.back ==> d == heading
    ensures keys.back && !keys.forward ==> d == Vec2(-heading.x, -heading.y)
  {
    if keys.forward == keys.back then Origin
    else if keys.forward then heading
    else Vec2(-heading.x, -heading.y)
  }

  /** The axis-separated move: with a non-zero direction, the X step is
      committed only if (next x, old y) does not collide, and then the Y
      step only if (current x, next y) does not collide. */
  function Move(m: Maze, pos: Vec2, dir: Vec2, speed: real): (r: Vec2)
    requires Shaped(m.grid)
    ensures dir == Origin ==> r == pos
    ensures r.x == pos.x || (r.x == pos.x + dir.x * speed && !Collides(m, r.x, pos.y))
    ensures r.y == pos.y || (r.y == pos.y + dir.y * speed && !Collides(m, r.x, r.y))
    ensures dir != Origin && !Collides(m, pos.x + dir.x * speed, pos.y) ==> r.x == pos.x + dir.x * speed
    ensures dir != Origin && !Collides(m, r.x, pos.y + dir.y * speed) ==> r.y == pos.y + dir.y * speed
  {
    if dir == Origin then pos
    else
      var nextX := pos.x + dir.x * speed;
      var nextY := pos.y + dir.y * speed;
      var x := if !Collides(m, nextX, pos.y) then nextX else pos.x;
      var y := if !Collides(m, x, nextY) then nextY else pos.y;
      Vec2(x, y)
  }

  /** Never enter a wall: from a position that does not collide, a move
      ends on a position that does not collide. */
  lemma MoveStaysClear(m: Maze, pos: Vec2, dir: Vec2, speed: real)
    requires Shaped(m.grid)
    ensures var r := Move(m, pos, dir, speed); !Collides(m, pos.x, pos.y) ==> !Collides(m, r.x, r.y)
  {
    var r := Move(m, pos, dir, speed);
    if r.y == pos.y {
      if r.x != pos.x {
        assert !Collides(m, r.x, pos.y);
      }
    }
  }

  /** Wall slide: when the X target collides but the Y target does not,
      only Y changes. */
  lemma WallSlide(m: Maze, pos: Vec2, dir: Vec2, speed: real)
    requires Shaped(m.grid)
    requires Collides(m, pos.x + dir.x * speed, pos.y)
    requires !Collides(m, pos.x, pos.y + dir.y * speed)
    ensures Move(m, pos, dir, speed) == Vec2(pos.x, pos.y + dir.y * speed)
  {
  }

  /** `process_events`: set the speed from power mode, turn, and move along
      the unit direction picked by W and S. */
  function ProcessEvents(p: Player, m: Maze, powerActive: bool, keys: MoveKeys, heading: Vec2): (r: Player)
    requires Shaped(m.grid)
    requires heading.x * heading.x + heading.y * heading.y == 1.0
    ensures r.speed == MoveSpeed(powerActive)
    ensures r.angle == Turn(p, keys).angle && r.rotationSpeed == p.rotationSpeed
    ensures r.pos == Move(m, p.pos, Direction(keys, heading), r.speed)
    ensures keys.forward == keys.back ==> r.pos == p.pos
    ensures !Collides(m, p.pos.x, p.pos.y) ==> !Collides(m, r.pos.x, r.pos.y)
  {
    var speed := MoveSpeed(powerActive);
    var turned := Turn(p, keys);
    var dir := Direction(keys, heading);
    MoveStaysClear(m, p.pos, dir, speed);
    turned.(speed := speed, pos := Move(m, p.pos, dir, speed))
  }
}

=== FILE: common.dfy ===
/** Value types shared by every part of the game model, and the numeric
    conversions the game applies to its floating-point coordinates.

    Single- and double-precision floats are modelled as mathematical reals,
    so rounding is not modelled; the conversions below state exactly what
    Rust's `as` casts and `f32` helpers do on the values they meet. */
module Common {

  /** An optional value: Rust's `Option`. */
  datatype Option<T> = None | Some(value: T)

  /** A point or direction in world units: raylib's `Vector2`. */
  datatype Vec2 = Vec2(x: real, y: real)

  const Origin: Vec2 := Vec2(0.0, 0.0)

  const I32Min: int := -0x8000_0000
  const I32Max: int := 0x7fff_ffff
  const U32Max: int := 0xffff_ffff

  function Abs(v: real): (r: real)
    ensures 0.0 <= r
    ensures r == v || r == -v
  {
    if v < 0.0 then -v else v
  }

  function Max(a: int, b: int): (r: int)
    ensures a <= r && b <= r
    ensures r == a || r == b
  {
    if a < b then b else a
  }

  function Min(a: int, b: int): (r: int)
    ensures r <= a && r <= b
    ensures r == a || r == b
  {
    if a < b then a else b
  }

  /** Rounding toward zero, the rounding of every float-to-integer `as` cast. */
  function Trunc(v: real): (r: int)
    ensures Abs(r as real) <= Abs(v) < Abs(r as real) + 1.0
    ensures 0.0 <= v ==> 0 <= r
    ensures v <= 0.0 ==> r <= 0
  {
    if 0.0 <= v then v.Floor else -((-v).Floor)
  }

  /** `v as usize`: rounds toward zero, and every negative value saturates
      to 0. (The saturation at usize::MAX is never reached by the game's
      coordinates and is not modelled.) */
  function ToUsize(v: real): (r: nat)
    ensures v <= 0.0 ==> r == 0
    ensures 0.0 <= v ==> r as real <= v < r as real + 1.0
  {
    if v <= 0.0 then 0 else v.Floor
  }

  /** `v as i32`: rounds toward zero and saturates at both ends of the i32 range. */
  function ToI32(v: real): (r: int)
    ensures I32Min <= r <= I32Max
    ensures 0.0 <= v ==> 0 <= r && r as real <= v
    ensures 0.0 <= v < I32Max as real ==> v < r as real + 1.0
    ensures v <= 0.0 ==> r <= 0 && v <= r as real
    ensures I32Min as real < v <= 0.0 ==> r as real - 1.0 < v
    ensures v <= I32Min as real ==> r == I32Min
    ensures I32Max as real <= v ==> r == I32Max
  {
    if v <= I32Min as real then I32Min
    else if I32Max as real <= v then I32Max
    else Trunc(v)
  }

  /** `v as u32`: rounds toward zero, negatives saturate to 0, and values
      past the top saturate to u32::MAX. */
  function ToU32(v: real): (r: nat)
    ensures r <= U32Max
    ensures v <= 0.0 ==> r == 0
    ensures 0.0 <= v < U32Max as real ==> r as real <= v < r as real + 1.0
    ensures U32Max as real <= v ==> r == U32Max
  {
    if v <= 0.0 then 0
    else if U32Max as real <= v then U32Max
    else v.Floor
  }

  /** Rust's `fract()` followed by `abs()`: the fractional part of `v`
      (taken toward zero, so it carries the sign of `v`), made non-negative.
      It always lies in [0, 1) and equals the fractional part of |v|. */
  function FracAbs(v: real): (r: real)
    ensures 0.0 <= r < 1.0
    ensures r == Abs(v) - Abs(v).Floor as real
  {
    Abs(v - Trunc(v) as real)
  }

  /** Rust's `f32::signum`: -1 for negative values and +1 otherwise. A
      difference of equal floats is +0.0, whose signum is +1, so zero maps
      to +1 here. */
  function Signum(v: real): (r: real)
    ensures r == 1.0 || r == -1.0
    ensures r < 0.0 <==> v < 0.0
  {
    if v < 0.0 then -1.0 else 1.0
  }
}

=== FILE: game.dfy ===
/** The game-state machine (src/game_state.rs): the mode, the score with
    its high score and extra-life rule, the lives counter, level progress,
    power mode and the time-based bonus multiplier. Clock readings (`now`,
    the frame time) are parameters. */
module Game {
  import opened Common

  datatype GameMode = Playing | LevelComplete | GameOver | Paused | Menu

  const InitialLives: nat := 3
  const PowerDuration: real := 10.0
  const PowerMultiplier: nat := 2
  /** A score that is a positive multiple of this earns an extra life. */
  const ExtraLifeEvery: nat := 10000
  const LevelBonusPerLevel: nat := 1000
  /** The time bonus is `TimeBonusRate` points per second left of this window. */
  const TimeBonusWindow: real := 120.0
  const TimeBonusRate: real := 10.0

  datatype GameState = GameState(
    score: nat,
    level: nat,
    lives: nat,
    mode: GameMode,
    highScore: nat,
    levelStartTime: real,
    gameTime: real,
    levelCompleteTime: real,
    powerActive: bool,
    powerTimer: real,
    powerDuration: real,
    bonusMultiplier: nat,
    gameOverTime: Option<real>)

  /** What every operation keeps: the high score is never below the score,
      the multiplier is 1, 2 or 3, and an inactive power mode has no time
      left. */
  ghost predicate Inv(s: GameState)
  {
    && s.score <= s.highScore
    && 1 <= s.bonusMultiplier <= 3
    && (!s.powerActive ==> s.powerTimer == 0.0)
  }

  /** `GameState::new` at clock reading `now`. */
  function NewGame(now: real): (s: GameState)
    ensures Inv(s)
    ensures s.mode == Playing && s.score == 0 && s.highScore == 0 && s.level == 1
    ensures s.lives == InitialLives && !s.powerActive && s.bonusMultiplier == 1
    ensures s.levelStartTime == now && s.gameOverTime == None
    ensures s.gameTime == 0.0 && s.levelCompleteTime == 0.0 && s.powerTimer == 0.0
    ensures s.powerDuration == PowerDuration
  {
    GameState(0, 1, InitialLives, Playing, 0, now, 0.0, 0.0, false, 0.0, PowerDuration, 1, None)
  }

  /** The multiplier by level time: 3 under 30 s, 2 under 60 s, else 1. */
  function BonusFor(gameTime: real): (k: nat)
    ensures 1 <= k <= 3
    ensures gameTime < 30.0 <==> k == 3
    ensures 60.0 <= gameTime <==> k == 1
  {
    if gameTime < 30.0 then 3 else if gameTime < 60.0 then 2 else 1
  }

  /** The time multiplier never grows as the level goes on. */
  lemma BonusNonIncreasing(t1: real, t2: real)
    requires t1 <= t2
    ensures BonusFor(t2) <= BonusFor(t1)
  {
  }

  /** `update_bonus_multiplier`: only when power mode is off, the multiplier
      follows the level time; nothing else changes. */
  function UpdateBonusMultiplier(s: GameState): (r: GameState)
    ensures r.(bonusMultiplier := s.bonusMultiplier) == s
    ensures s.powerActive ==> r.bonusMultiplier == s.bonusMultiplier
    ensures !s.powerActive ==> r.bonusMultiplier == BonusFor(s.gameTime)
    ensures Inv(s) ==> Inv(r)
  {
    if !s.powerActive then s.(bonusMultiplier := BonusFor(s.gameTime)) else s
  }

  /** `activate_power_mode`: on, with the full duration and multiplier 2. */
  function ActivatePowerMode(s: GameState): (r: GameState)
    ensures r.powerActive && r.powerTimer == s.powerDuration && r.bonusMultiplier == PowerMultiplier
    ensures r.(powerActive := s.powerActive, powerTimer := s.powerTimer, bonusMultiplier := s.bonusMultiplier) == s
    ensures Inv(s) ==> Inv(r)
  {
    s.(powerActive := true, powerTimer := s.powerDuration, bonusMultiplier := PowerMultiplier)
  }

  /** `deactivate_power_mode`: off, no time left, multiplier 1. */
  function DeactivatePowerMode(s: GameState): (r: GameState)
    ensures !r.powerActive && r.powerTimer == 0.0 && r.bonusMultiplier == 1
    ensures r.(powerActive := s.powerActive, powerTimer := s.powerTimer, bonusMultiplier := s.bonusMultiplier) == s
    ensures s.score <= s.highScore ==> Inv(r)
  {
    s.(powerActive := false, powerTimer := 0.0, bonusMultiplier := 1)
  }

  /** `update`: the level time becomes `now` minus the level start; an
      active power mode loses the frame time and switches off once its
      timer reaches zero or below; then the multiplier is refreshed. Score,
      lives, level and mode are untouched. */
  function Update(s: GameState, now: real, frameTime: real): (r: GameState)
    ensures r.gameTime == now - s.levelStartTime
    ensures r.score == s.score && r.highScore == s.highScore && r.lives == s.lives
    ensures r.level == s.level && r.mode == s.mode && r.gameOverTime == s.gameOverTime
    ensures s.powerActive && s.powerTimer - frameTime > 0.0 ==>
      r.powerActive && r.powerTimer == s.powerTimer - frameTime && r.bonusMultiplier == s.bonusMultiplier
    ensures s.powerActive && s.powerTimer - frameTime <= 0.0 ==>
      !r.powerActive && r.powerTimer == 0.0 && r.bonusMultiplier == BonusFor(r.gameTime)
    ensures !s.powerActive ==> !r.powerActive && r.powerTimer == s.powerTimer && r.bonusMultiplier == BonusFor(r.gameTime)
    ensures r.(gameTime := s.gameTime, powerActive := s.powerActive, powerTimer := s.powerTimer,
               bonusMultiplier := s.bonusMultiplier) == s
    ensures Inv(s) ==> Inv(r)
  {
    var s1 := s.(gameTime := now - s.levelStartTime);
    var s2 :=
      if s1.powerActive then
        var s3 := s1.(powerTimer := s1.powerTimer - frameTime);
        if s3.powerTimer <= 0.0 then DeactivatePowerMode(s3) else s3
      else s1;
    UpdateBonusMultiplier(s2)
  }

  /** The extra-life rule: the score has landed on a positive multiple of 10000. */
  predicate EarnsExtraLife(score: nat)
  {
    score > 0 && score % ExtraLifeEvery == 0
  }

  /** `add_score`: the points are multiplied by the bonus multiplier and
      added; the high score becomes the larger of itself and the new score;
      one life is added exactly when the new score earns it. */
  function AddScore(s: GameState, points: nat): (r: GameState)
    ensures r.score == s.score + points * s.bonusMultiplier
    ensures r.highScore == Max(s.highScore, r.score) && r.score <= r.highScore
    ensures r.lives == s.lives + 1 <==> EarnsExtraLife(r.score)
    ensures r.lives == s.lives || r.lives == s.lives + 1
    ensures r.(score := s.score, highScore := s.highScore, lives := s.lives) == s
    ensures Inv(s) ==> Inv(r)
  {
    var score := s.score + points * s.bonusMultiplier;
    var high := if score > s.highScore then score else s.highScore;
    var lives := if score > 0 && score % ExtraLifeEvery == 0 then s.lives + 1 else s.lives;
    s.(score := score, highScore := high, lives := lives)
  }

  /** `lose_life`: one life fewer, never below zero; when none are left the
      game is over, stamped with `now`. */
  function LoseLife(s: GameState, now: real): (r: GameState)
    ensures r.lives as int == Max(s.lives - 1, 0)
    ensures r.lives == 0 ==> r.mode == GameOver && r.gameOverTime == Some(now)
    ensures r.lives > 0 ==> r.mode == s.mode && r.gameOverTime == s.gameOverTime
    ensures r.(lives := s.lives, mode := s.mode, gameOverTime := s.gameOverTime) == s
    ensures Inv(s) ==> Inv(r)
  {
    var lives := if s.lives > 0 then s.lives - 1 else s.lives;
    if lives == 0 then s.(lives := lives, mode := GameOver, gameOverTime := Some(now))
    else s.(lives := lives)
  }

  /** The time bonus: ten points per second left of the two-minute window,
      truncated to a whole number; zero once the window has passed and at
      most 1200 for a non-negative level time. */
  function TimeBonus(gameTime: real): (b: nat)
    ensures TimeBonusWindow <= gameTime ==> b == 0
    ensures 0.0 <= gameTime <= TimeBonusWindow ==>
      b as real <= (TimeBonusWindow - gameTime) * TimeBonusRate < b as real + 1.0
    ensures 0.0 <= gameTime ==> b <= 1200
  {
    var left := TimeBonusWindow - gameTime;
    ToU32((if left < 0.0 then 0.0 else left) * TimeBonusRate)
  }

  lemma TimeBonusNonIncreasing(t1: real, t2: real)
    requires t1 <= t2
    ensures TimeBonus(t2) <= TimeBonus(t1)
  {
    var a1 := TimeBonusWindow - t1;
    var a2 := TimeBonusWindow - t2;
    var v1 := (if a1 < 0.0 then 0.0 else a1) * TimeBonusRate;
    var v2 := (if a2 < 0.0 then 0.0 else a2) * TimeBonusRate;
    assert v2 <= v1;
  }

  /** `complete_level`: the level is complete (stamped with `now`) and the
      score grows by the level bonus plus the time bonus, multiplied by the
      current multiplier, through the usual score rule. */
  function CompleteLevel(s: GameState, now: real): (r: GameState)
    ensures r.mode == LevelComplete && r.levelCompleteTime == now
    ensures r.level == s.level && r.gameOverTime == s.gameOverTime && s.score <= r.score
    ensures r.score == s.score + (s.level * LevelBonusPerLevel + TimeBonus(s.gameTime)) * s.bonusMultiplier
    ensures r == AddScore(s.(mode := LevelComplete, levelCompleteTime := now),
                          s.level * LevelBonusPerLevel + TimeBonus(s.gameTime))
    ensures Inv(s) ==> Inv(r)
  {
    var s1 := s.(mode := LevelComplete, levelCompleteTime := now);
    var timeBonus := TimeBonus(s1.gameTime);
    var levelBonus := s1.level * LevelBonusPerLevel;
    AddScore(s1, levelBonus + timeBonus)
  }

  /** `next_level`: one level up, playing again from `now`, power mode off. */
  function NextLevel(s: GameState, now: real): (r: GameState)
    ensures r.level == s.level + 1 && r.mode == Playing && r.levelStartTime == now
    ensures !r.powerActive && r.powerTimer == 0.0 && r.bonusMultiplier == 1
    ensures r.score == s.score && r.highScore == s.highScore && r.lives == s.lives
    ensures r.(level := s.level, mode := s.mode, levelStartTime := s.levelStartTime, powerActive := s.powerActive,
               powerTimer := s.powerTimer, bonusMultiplier := s.bonusMultiplier) == s
    ensures Inv(s) ==> Inv(r)
  {
    var s1 := s.(level := s.level + 1, mode := Playing, levelStartTime := now);
    DeactivatePowerMode(s1)
  }

  /** `reset_game`: a new game from `now` that keeps only the high score
      (and the power duration and last completion time). */
  function ResetGame(s: GameState, now: real): (r: GameState)
    ensures r.score == 0 && r.level == 1 && r.lives == InitialLives && r.mode == Playing
    ensures r.levelStartTime == now && r.gameTime == 0.0
    ensures !r.powerActive && r.powerTimer == 0.0 && r.bonusMultiplier == 1 && r.gameOverTime == None
    ensures r.highScore == s.highScore
    ensures r == NewGame(now).(highScore := s.highScore, levelCompleteTime := s.levelCompleteTime,
                               powerDuration := s.powerDuration)
    ensures Inv(r)
  {
    var s1 := s.(score := 0, level := 1, lives := InitialLives, mode := Playing,
                 levelStartTime := now, gameTime := 0.0);
    var s2 := DeactivatePowerMode(s1);
    s2.(bonusMultiplier := 1, gameOverTime := None)
  }

  /** `pause_game`: Playing and Paused swap; every other mode stays. */
  function PauseGame(s: GameState): (r: GameState)
    ensures s.mode == Playing ==> r.mode == Paused
    ensures s.mode == Paused ==> r.mode == Playing
    ensures s.mode != Playing && s.mode != Paused ==> r.mode == s.mode
    ensures r.(mode := s.mode) == s
    ensures Inv(s) ==> Inv(r)
  {
    if s.mode == Playing then s.(mode := Paused)
    else if s.mode == Paused then s.(mode := Playing)
    else s
  }

  /** Pausing twice changes nothing. */
  lemma PauseTwice(s: GameState)
    ensures PauseGame(PauseGame(s)) == s
  {
  }

  /** `handle_input`: P toggles pause while Playing or Paused, SPACE starts
      the next level from LevelComplete; Menu and GameOver ignore input.
      These are the only mode changes it makes. */
  function HandleInput(s: GameState, pPressed: bool, spacePressed: bool, now: real): (r: GameState)
    ensures s.mode == Menu || s.mode == GameOver ==> r == s
    ensures !pPressed && !spacePressed ==> r == s
    ensures (s.mode == Playing || s.mode == Paused) && pPressed ==> r == PauseGame(s)
    ensures s.mode == LevelComplete && spacePressed ==> r == NextLevel(s, now)
    ensures (s.mode == Playing || s.mode == Paused) && !pPressed ==> r == s
    ensures s.mode == LevelComplete && !spacePressed ==> r == s
    ensures r.mode != s.mode ==>
      || (s.mode == Playing && r.mode == Paused && pPressed)
      || (s.mode == Paused && r.mode == Playing && pPressed)
      || (s.mode == LevelComplete && r.mode == Playing && spacePressed)
    ensures Inv(s) ==> Inv(r)
  {
    match s.mode
    case Playing => if pPressed then PauseGame(s) else s
    case GameOver => s
    case Paused => if pPressed then PauseGame(s) else s
    case LevelComplete => if spacePressed then NextLevel(s, now) else s
    case Menu => s
  }
}

=== FILE: game_loop.dfy ===
/** The rules of the main loop (src/main.rs) as pure step functions: menu
    navigation, difficulty and ghost spawning, how a collected pellet feeds
    the score and power mode, the ghosts' chase step and catch rule, the
    clamp of the fallback wall strip, and one whole frame of the loop.
    Drawing, asset loading and the process restart are not modelled. */
module GameLoop {
  import opened Common
  import opened Grid
  import opened Actor
  import opened Game

  // ---------------------------------------------------------------- menu

  datatype Difficulty = Easy | Medium | Hard

  /** Position of a difficulty in the menu's cycle. */
  function Rank(d: Difficulty): nat
  {
    match d
    case Easy => 0
    case Medium => 1
    case Hard => 2
  }

  /** RIGHT on the difficulty line: Easy, Medium, Hard, then Easy again. */
  function NextDifficulty(d: Difficulty): (r: Difficulty)
    ensures Rank(r) == (Rank(d) + 1) % 3
  {
    match d
    case Easy => Medium
    case Medium => Hard
    case Hard => Easy
  }

  /** LEFT on the difficulty line: the reverse cycle. */
  function PrevDifficulty(d: Difficulty): (r: Difficulty)
    ensures Rank(r) == (Rank(d) + 2) % 3
  {
    match d
    case Easy => Hard
    case Medium => Easy
    case Hard => Medium
  }

  lemma RankInjective(a: Difficulty, b: Difficulty)
    requires Rank(a) == Rank(b)
    ensures a == b
  {
  }

  /** LEFT undoes RIGHT and RIGHT undoes LEFT; three presses in one
      direction come back to the start. */
  lemma DifficultyCycle(d: Difficulty)
    ensures PrevDifficulty(NextDifficulty(d)) == d
    ensures NextDifficulty(PrevDifficulty(d)) == d
    ensures NextDifficulty(NextDifficulty(NextDifficulty(d))) == d
    ensures PrevDifficulty(PrevDifficulty(PrevDifficulty(d))) == d
  {
    RankInjective(PrevDifficulty(NextDifficulty(d)), d);
    RankInjective(NextDifficulty(PrevDifficulty(d)), d);
    RankInjective(NextDifficulty(NextDifficulty(NextDifficulty(d))), d);
    RankInjective(PrevDifficulty(PrevDifficulty(PrevDifficulty(d))), d);
  }

  /** The ghosts' base speed: 1, 2, 3 for Easy, Medium, Hard, one more
      per step from Easy to Medium to Hard. */
  function GhostBaseSpeed(d: Difficulty): (s: real)
    ensures s == (Rank(d) + 1) as real
  {
    match d
    case Easy => 1.0
    case Medium => 2.0
    case Hard => 3.0
  }

  /** Each step from Easy to Medium to Hard makes the ghosts one unit
      faster; the wrap from Hard back to Easy is excluded, since it makes
      them two units slower. */
  lemma HarderIsFaster(d: Difficulty)
    requires d != Hard
    ensures GhostBaseSpeed(NextDifficulty(d)) == GhostBaseSpeed(d) + 1.0
  {
  }

  /** The menu lines: 0 the number of ghosts, 1 the difficulty, 2 start. */
  const MenuLines: nat := 3

  /** DOWN moves the cursor one line down, wrapping. */
  function CursorDown(s: nat): (r: nat)
    ensures r < MenuLines
    ensures s < MenuLines - 1 ==> r == s + 1
    ensures s == MenuLines - 1 ==> r == 0
  {
    (s + 1) % MenuLines
  }

  /** UP moves the cursor one line up, wrapping. */
  function CursorUp(s: nat): (r: nat)
    ensures r < MenuLines
    ensures 0 < s < MenuLines ==> r == s - 1
    ensures s == 0 ==> r == MenuLines - 1
  {
    (s + 2) % MenuLines
  }

  /** UP after DOWN, and DOWN after UP, restore the cursor. */
  lemma CursorRoundTrip(s: nat)
    requires s < MenuLines
    ensures CursorUp(CursorDown(s)) == s && CursorDown(CursorUp(s)) == s
  {
  }

  datatype MenuState = MenuState(numGhosts: nat, difficulty: Difficulty, selected: nat)

  const InitialMenu: MenuState := MenuState(2, Medium, 0)

  /** The menu only ever offers one or two ghosts and three lines. */
  ghost predicate MenuInv(ms: MenuState)
  {
    (ms.numGhosts == 1 || ms.numGhosts == 2) && ms.selected < MenuLines
  }

  /** Every key the loop reads in one frame. */
  datatype Keys = Keys(
    w: bool, s: bool, a: bool, d: bool,
    p: bool, space: bool,
    up: bool, down: bool, left: bool, right: bool,
    one: bool, two: bool, enter: bool)

  function MoveKeysOf(k: Keys): MoveKeys
  {
    MoveKeys(k.w, k.s, k.a, k.d)
  }

  /** One frame of menu input (main.rs lines 134-163): DOWN then UP move the
      cursor; on the ghosts line LEFT or 1 picks one ghost and RIGHT or 2
      picks two; on the difficulty line LEFT and RIGHT walk the cycle. */
  function MenuInput(ms: MenuState, k: Keys): (r: MenuState)
    ensures MenuInv(ms) ==> MenuInv(r)
    ensures r.selected != 0 ==> r.numGhosts == ms.numGhosts
    ensures r.selected != 1 ==> r.difficulty == ms.difficulty
    ensures r.selected == 0 && (k.left || k.one) && !(k.right || k.two) ==> r.numGhosts == 1
    ensures r.selected == 0 && (k.right || k.two) ==> r.numGhosts == 2
    ensures r.selected == 1 && k.right && !k.left ==> r.difficulty == NextDifficulty(ms.difficulty)
    ensures r.selected == 1 && k.left && !k.right ==> r.difficulty == PrevDifficulty(ms.difficulty)
    ensures r.selected == 1 && k.left == k.right ==> r.difficulty == ms.difficulty
    ensures !k.down && !k.up ==> r.selected == ms.selected
    ensures k.down && !k.up ==> r.selected == CursorDown(ms.selected)
    ensures k.up && !k.down ==> r.selected == CursorUp(ms.selected)
    ensures k.up && k.down && ms.selected < MenuLines ==> r.selected == ms.selected
    ensures r.selected == 0 && !(k.left || k.one || k.right || k.two) ==> r.numGhosts == ms.numGhosts
  {
    var sel1 := if k.down then CursorDown(ms.selected) else ms.selected;
    var sel := if k.up then CursorUp(sel1) else sel1;
    var n1 := if sel == 0 && (k.left || k.one) then 1 else ms.numGhosts;
    var n := if sel == 0 && (k.right || k.two) then 2 else n1;
    var d1 := if sel == 1 && k.left then PrevDifficulty(ms.difficulty) else ms.difficulty;
    var d := if sel == 1 && k.right then NextDifficulty(d1) else d1;
    DifficultyCycle(ms.difficulty);
    MenuState(n, d, sel)
  }

  // -------------------------------------------------------------- ghosts

  datatype Ghost = Ghost(pos: Vec2, speed: real)

  /** Ghost spawn cells as written: the first, (10, 13), is a Wall cell. */
  const AsWrittenGhostCells: seq<(nat, nat)> := [(10, 13), (10, 11)]

  /** Ghost spawn cells with the first moved to (10, 9), the open
      middle of the ghost house. */
  const GhostCells: seq<(nat, nat)> := [(10, 9), (10, 11)]

  /** The player's start cell. */
  const PlayerStartX: nat := 10
  const PlayerStartY: nat := 15

  /** A ghost moves at this fraction of the player's speed. */
  const GhostSpeedFactor: real := 0.75

  /** `spawn_ghosts`: the first n spawn cells, each ghost at its cell's
      centre with the difficulty's base speed. The source indexes a
      two-element array, so n may not exceed the number of cells. */
  function SpawnGhosts(n: nat, d: Difficulty, cells: seq<(nat, nat)>): (gs: seq<Ghost>)
    requires n <= |cells|
    ensures |gs| == n
    ensures forall i :: 0 <= i < n ==>
      gs[i].speed == GhostBaseSpeed(d)
      && gs[i].pos == Vec2(CellCentre(cells[i].0), CellCentre(cells[i].1))
      && CellCoord(gs[i].pos.x) == cells[i].0 && CellCoord(gs[i].pos.y) == cells[i].1
  {
    seq(n, i requires 0 <= i < n =>
      var p := Spawn(cells[i].0, cells[i].1).pos;
      Ghost(p, GhostBaseSpeed(d)))
  }

  /** The one-axis steps a ghost may take toward a target: along X or along
      Y by `speed` times the sign of the remaining distance (+1 at zero). */
  function StepX(pos: Vec2, target: Vec2, speed: real): Vec2
  {
    Vec2(pos.x + speed * Signum(target.x - pos.x), pos.y)
  }

  function StepY(pos: Vec2, target: Vec2, speed: real): Vec2
  {
    Vec2(pos.x, pos.y + speed * Signum(target.y - pos.y))
  }

  /** The ghost prefers the X axis when the X distance is strictly larger. */
  predicate PrefersX(pos: Vec2, target: Vec2)
  {
    Abs(target.x - pos.x) > Abs(target.y - pos.y)
  }

  /** The first of two candidate positions that does not collide, else stay. */
  function FirstClear(m: Maze, first: Vec2, second: Vec2, stay: Vec2): Vec2
    requires Shaped(m.grid)
  {
    if !Collides(m, first.x, first.y) then first
    else if !Collides(m, second.x, second.y) then second
    else stay
  }

  /** The ghost chase step (main.rs lines 192-224): the ghost's speed is
      reset to `speed`; it tries one step toward the target along the axis
      of the larger distance, and only if that is blocked, one step along
      the other axis. A step is taken only onto a position that does not
      collide. */
  function ChaseStep(g: Ghost, target: Vec2, speed: real, m: Maze): (r: Ghost)
    requires Shaped(m.grid)
    ensures r.speed == speed
    ensures r.pos == g.pos || r.pos == StepX(g.pos, target, speed) || r.pos == StepY(g.pos, target, speed)
    ensures r.pos != g.pos ==> !Collides(m, r.pos.x, r.pos.y)
    ensures var sx := StepX(g.pos, target, speed); var sy := StepY(g.pos, target, speed);
            && (PrefersX(g.pos, target) && !Collides(m, sx.x, sx.y) ==> r.pos == sx)
            && (!PrefersX(g.pos, target) && !Collides(m, sy.x, sy.y) ==> r.pos == sy)
            && (PrefersX(g.pos, target) && r.pos != sx && r.pos != g.pos ==> Collides(m, sx.x, sx.y))
            && (!PrefersX(g.pos, target) && r.pos != sy && r.pos != g.pos ==> Collides(m, sy.x, sy.y))
            && (PrefersX(g.pos, target) && Collides(m, sx.x, sx.y) && !Collides(m, sy.x, sy.y) ==> r.pos == sy)
            && (!PrefersX(g.pos, target) && Collides(m, sy.x, sy.y) && !Collides(m, sx.x, sx.y) ==> r.pos == sx)
            && (Collides(m, sx.x, sx.y) && Collides(m, sy.x, sy.y) ==> r.pos == g.pos)
  {
    var sx := StepX(g.pos, target, speed);
    var sy := StepY(g.pos, target, speed);
    var pos := if PrefersX(g.pos, target) then FirstClear(m, sx, sy, g.pos) else FirstClear(m, sy, sx, g.pos);
    Ghost(pos, speed)
  }

  /** A ghost that does not collide never comes to collide. */
  lemma ChaseStaysClear(g: Ghost, target: Vec2, speed: real, m: Maze)
    requires Shaped(m.grid)
    requires !Collides(m, g.pos.x, g.pos.y)
    ensures var r := ChaseStep(g, target, speed, m); !Collides(m, r.pos.x, r.pos.y)
  {
  }

  /** The chase overwrites the ghost's speed before moving, so the speed a
      ghost was spawned with (the difficulty's) never affects its moves. */
  lemma ChaseIgnoresStoredSpeed(g: Ghost, other: real, target: Vec2, speed: real, m: Maze)
    requires Shaped(m.grid)
    ensures ChaseStep(g.(speed := other), target, speed, m) == ChaseStep(g, target, speed, m)
  {
  }

  /** The catch rule: closer than half a cell to the player on both axes,
      that is, the player stands strictly inside the cell-sized square
      centred on the ghost. */
  function Catches(g: Ghost, player: Vec2): (caught: bool)
    ensures var h := (CellSize as real) / 2.0;
      caught <==> (g.pos.x - h < player.x < g.pos.x + h && g.pos.y - h < player.y < g.pos.y + h)
  {
    Abs(g.pos.x - player.x) < (CellSize as real) / 2.0
    && Abs(g.pos.y - player.y) < (CellSize as real) / 2.0
  }

  /** A ghost at the centre of cell (gx, gy) catches exactly the players
      strictly inside that cell's square, so a caught player always stands
      in the ghost's cell. */
  lemma CatchAtCentre(gx: nat, gy: nat, player: Vec2, stored: real)
    ensures var caught := Catches(Ghost(Spawn(gx, gy).pos, stored), player);
      && (caught <==> ((gx * CellSize) as real < player.x < ((gx + 1) * CellSize) as real
                       && (gy * CellSize) as real < player.y < ((gy + 1) * CellSize) as real))
      && (caught ==> CellCoord(player.x) == gx && CellCoord(player.y) == gy)
  {
    if Catches(Ghost(Spawn(gx, gy).pos, stored), player) {
      WithinHalfCell(gx, player.x);
      WithinHalfCell(gy, player.y);
    }
  }

  /** All ghosts take their chase step in order; the result says whether
      any of them, after its step, catches the player. */
  function ChaseAll(gs: seq<Ghost>, target: Vec2, speed: real, m: Maze): (r: (seq<Ghost>, bool))
    requires Shaped(m.grid)
    ensures |r.0| == |gs|
    ensures forall i :: 0 <= i < |gs| ==> r.0[i] == ChaseStep(gs[i], target, speed, m)
    ensures r.1 <==> exists i :: 0 <= i < |r.0| && Catches(r.0[i], target)
    decreases |gs|
  {
    if |gs| == 0 then ([], false)
    else
      var g := ChaseStep(gs[0], target, speed, m);
      var rest := ChaseAll(gs[1..], target, speed, m);
      ([g] + rest.0, Catches(g, target) || rest.1)
  }

  // ---------------------------------------------------- pellets and score

  /** How a collected reward feeds the game (main.rs lines 178-184): any
      reward goes through the score rule, and a 50-point reward then
      switches power mode on. */
  function RewardPellet(s: GameState, reward: Option<nat>): (r: GameState)
    ensures reward == None ==> r == s
    ensures reward.Some? ==> r.score == s.score + reward.value * s.bonusMultiplier
    ensures reward.Some? ==> r.highScore == Max(s.highScore, r.score)
    ensures reward.Some? ==> (r.lives == s.lives + 1 <==> EarnsExtraLife(r.score))
    ensures r.lives == s.lives || r.lives == s.lives + 1
    ensures reward != Some(PowerPelletReward) ==> r.powerTimer == s.powerTimer && r.bonusMultiplier == s.bonusMultiplier
    ensures r.powerActive <==> s.powerActive || reward == Some(PowerPelletReward)
    ensures reward == Some(PowerPelletReward) ==>
      r.powerTimer == s.powerDuration && r.bonusMultiplier == PowerMultiplier
    ensures r.mode == s.mode && r.level == s.level
    ensures r.(score := s.score, highScore := s.highScore, lives := s.lives, powerActive := s.powerActive,
               powerTimer := s.powerTimer, bonusMultiplier := s.bonusMultiplier) == s
    ensures Inv(s) ==> Inv(r)
  {
    match reward
    case None => s
    case Some(points) =>
      var s1 := AddScore(s, points);
      if points == PowerPelletReward then ActivatePowerMode(s1) else s1
  }

  // -------------------------------------------------- fallback wall strip

  /** The rows of the flat-colour strip drawn when a column has no texture
      (main.rs lines 295-296): centred on the middle row, half the wall
      height (truncated) above and below, clamped to the screen. The strip
      never leaves the screen and is never taller than the wall. */
  function StripBounds(screenHeight: int, wallHeight: real): (r: (int, int))
    requires 0 <= screenHeight <= I32Max
    ensures 0 <= r.0 && r.1 <= screenHeight
    ensures 0.0 <= wallHeight ==> r.0 <= screenHeight / 2 <= r.1
    ensures 0.0 <= wallHeight ==> (r.1 - r.0) as real <= wallHeight
    ensures 0.0 <= wallHeight < screenHeight as real ==> wallHeight - 2.0 < (r.1 - r.0) as real
    ensures screenHeight as real + 1.0 <= wallHeight ==> r == (0, screenHeight)
  {
    var half := ToI32(wallHeight / 2.0);
    assert 0.0 <= wallHeight < screenHeight as real ==> half <= screenHeight / 2 by {
      if 0.0 <= wallHeight < screenHeight as real {
        assert (half as real) * 2.0 <= wallHeight;
        assert half * 2 < screenHeight;
      }
    }
    (Max(screenHeight / 2 - half, 0), Min(screenHeight / 2 + half, screenHeight))
  }

  // ---------------------------------------------------------- the frame

  /** Everything the loop keeps between frames. */
  datatype World = World(maze: Maze, player: Player, game: GameState, menu: MenuState, ghosts: seq<Ghost>)

  /** One frame's readings: the clock, the frame time, the keys, and
      (cos, sin) of the player's heading after this frame's turn. */
  datatype FrameInput = FrameInput(now: real, frameTime: real, keys: Keys, heading: Vec2)

  /** What the loop needs to run a frame: the constructor's grid shape and a
      ghost count the spawn table can serve. */
  ghost predicate Runnable(w: World)
  {
    Shaped(w.maze.grid) && w.menu.numGhosts <= 2
  }

  ghost predicate UnitHeading(input: FrameInput)
  {
    input.heading.x * input.heading.x + input.heading.y * input.heading.y == 1.0
  }

  /** The properties every frame keeps: a well-formed maze that conserves
      pellets, a valid menu and game state, and a player who is not inside
      a wall. */
  ghost predicate WorldInv(w: World)
  {
    && Valid(w.maze)
    && MenuInv(w.menu)
    && Inv(w.game)
    && !Collides(w.maze, w.player.pos.x, w.player.pos.y)
  }

  /** No ghost is inside a wall. */
  ghost predicate GhostsClear(w: World)
    requires Shaped(w.maze.grid)
  {
    forall i :: 0 <= i < |w.ghosts| ==> !Collides(w.maze, w.ghosts[i].pos.x, w.ghosts[i].pos.y)
  }

  /** The world at start-up: a fresh maze, the player at the start cell, a
      new game switched to the menu, and no ghosts yet. */
  function InitialWorld(now: real): (w: World)
    ensures WorldInv(w) && GhostsClear(w)
    ensures w.game.mode == Menu
    ensures w.menu == InitialMenu && w.ghosts == [] && w.maze == FreshMaze()
    ensures w.player == Spawn(PlayerStartX, PlayerStartY) && w.game == NewGame(now).(mode := Menu)
  {
    var m := FreshMaze();
    var p := Spawn(PlayerStartX, PlayerStartY);
    var g := NewGame(now).(mode := Menu);
    FreshMazeCells();
    assert Valid(m) && !Collides(m, p.pos.x, p.pos.y);
    assert Inv(g) && MenuInv(InitialMenu);
    World(m, p, g, InitialMenu, [])
  }

  /** A fresh level: the fresh maze, the player at the start cell and the
      menu's ghosts at their spawn cells. */
  function FreshLevel(w: World, cells: seq<(nat, nat)>): (r: World)
    requires w.menu.numGhosts <= 2 && |cells| == 2
    ensures Valid(r.maze) && r.maze == FreshMaze()
    ensures r.player == Spawn(PlayerStartX, PlayerStartY) && !Collides(r.maze, r.player.pos.x, r.player.pos.y)
    ensures r.ghosts == SpawnGhosts(w.menu.numGhosts, w.menu.difficulty, cells)
    ensures r.game == w.game && r.menu == w.menu
  {
    FreshMazeCells();
    w.(maze := FreshMaze(), player := Spawn(PlayerStartX, PlayerStartY),
       ghosts := SpawnGhosts(w.menu.numGhosts, w.menu.difficulty, cells))
  }

  /** The menu part of a frame (main.rs lines 133-170): menu input, and on
      ENTER a fresh level in mode Playing. */
  function MenuFrame(w: World, k: Keys, cells: seq<(nat, nat)>): (r: World)
    requires Runnable(w) && MenuInv(w.menu) && |cells| == 2
    ensures r.menu == MenuInput(w.menu, k)
    ensures k.enter ==> (r.game.mode == Playing && r.maze == FreshMaze()
                         && r.player == Spawn(PlayerStartX, PlayerStartY)
                         && r.ghosts == SpawnGhosts(r.menu.numGhosts, r.menu.difficulty, cells))
    ensures k.enter ==> r.game == w.game.(mode := Playing)
    ensures !k.enter ==> r == w.(menu := r.menu)
  {
    var w1 := w.(menu := MenuInput(w.menu, k));
    if k.enter then FreshLevel(w1, cells).(game := w1.game.(mode := Playing)) else w1
  }

  /** The game's side of a collection (main.rs lines 178-188): the reward
      goes through the score rule and power mode, and the level completes
      whenever no pellet is left. Completing only adds to the score and
      leaves the level number alone. */
  function AwardCollection(s: GameState, reward: Option<nat>, levelDone: bool, now: real): (r: GameState)
    ensures levelDone ==> r.mode == LevelComplete && r.levelCompleteTime == now
    ensures !levelDone ==> r.mode == s.mode && r == RewardPellet(s, reward)
    ensures levelDone ==> r == CompleteLevel(RewardPellet(s, reward), now)
    ensures levelDone ==> var g := RewardPellet(s, reward);
      r.score == g.score + (g.level * LevelBonusPerLevel + TimeBonus(g.gameTime)) * g.bonusMultiplier
    ensures r.level == s.level && r.gameOverTime == s.gameOverTime
    ensures RewardPellet(s, reward).score <= r.score
    ensures Inv(s) ==> Inv(r)
  {
    var g := RewardPellet(s, reward);
    if levelDone then CompleteLevel(g, now) else g
  }

  /** The player part of a playing frame (main.rs lines 174-188): move the
      player, collect at the player's cell, feed the reward to the game,
      and complete the level whenever no pellet is left to collect. The
      walls never change and the player never enters one. */
  function CollectPhase(w: World, input: FrameInput): (r: World)
    requires Shaped(w.maze.grid) && UnitHeading(input)
    ensures r.player == ProcessEvents(w.player, w.maze, w.game.powerActive, MoveKeysOf(input.keys), input.heading)
    ensures r.maze == CollectPellet(w.maze, CellCoord(r.player.pos.x), CellCoord(r.player.pos.y)).0
    ensures r.ghosts == w.ghosts && r.menu == w.menu
    ensures Shaped(r.maze.grid) && SameWalls(w.maze.grid, r.maze.grid)
    ensures Conserved(w.maze) ==> Conserved(r.maze)
    ensures !Collides(w.maze, w.player.pos.x, w.player.pos.y) ==> !Collides(r.maze, r.player.pos.x, r.player.pos.y)
    ensures r.game == AwardCollection(w.game, CollectPellet(w.maze, CellCoord(r.player.pos.x), CellCoord(r.player.pos.y)).1,
                                      IsLevelComplete(r.maze), input.now)
  {
    var p := ProcessEvents(w.player, w.maze, w.game.powerActive, MoveKeysOf(input.keys), input.heading);
    var c := CollectPellet(w.maze, CellCoord(p.pos.x), CellCoord(p.pos.y));
    CollidesSameWalls(w.maze, c.0, p.pos.x, p.pos.y);
    w.(maze := c.0, player := p, game := AwardCollection(w.game, c.1, IsLevelComplete(c.0), input.now))
  }

  /** The ghost part of a playing frame (main.rs lines 191-227): every
      ghost chases the player at three quarters of the player's speed, and
      a ghost that ends within half a cell of the player on both axes ends
      the game, without stamping a game-over time. */
  function ChasePhase(w: World): (r: World)
    requires Shaped(w.maze.grid)
    ensures r.maze == w.maze && r.player == w.player && r.menu == w.menu
    ensures r.ghosts == ChaseAll(w.ghosts, w.player.pos, w.player.speed * GhostSpeedFactor, w.maze).0
    ensures (exists i :: 0 <= i < |r.ghosts| && Catches(r.ghosts[i], w.player.pos)) ==>
      r.game == w.game.(mode := GameOver)
    ensures !(exists i :: 0 <= i < |r.ghosts| && Catches(r.ghosts[i], w.player.pos)) ==> r.game == w.game
    ensures GhostsClear(w) ==> GhostsClear(r)
    ensures Inv(w.game) ==> Inv(r.game)
  {
    var chase := ChaseAll(w.ghosts, w.player.pos, w.player.speed * GhostSpeedFactor, w.maze);
    var r := w.(ghosts := chase.0, game := if chase.1 then w.game.(mode := GameOver) else w.game);
    assert GhostsClear(w) ==> GhostsClear(r) by {
      if GhostsClear(w) {
        forall i | 0 <= i < |r.ghosts|
          ensures !Collides(r.maze, r.ghosts[i].pos.x, r.ghosts[i].pos.y)
        {
          ChaseStaysClear(w.ghosts[i], w.player.pos, w.player.speed * GhostSpeedFactor, w.maze);
        }
      }
    }
    r
  }

  /** The playing part of a frame: the player moves and collects on the
      old maze, then the ghosts chase the moved player on the new maze; a
      catch ends the game, and the level number never changes. */
  function PlayFrame(w: World, input: FrameInput): (r: World)
    requires Shaped(w.maze.grid) && UnitHeading(input)
    ensures Shaped(r.maze.grid) && SameWalls(w.maze.grid, r.maze.grid) && r.menu == w.menu
    ensures r.player == ProcessEvents(w.player, w.maze, w.game.powerActive, MoveKeysOf(input.keys), input.heading)
    ensures r.maze == CollectPellet(w.maze, CellCoord(r.player.pos.x), CellCoord(r.player.pos.y)).0
    ensures var chase := ChaseAll(w.ghosts, r.player.pos, r.player.speed * GhostSpeedFactor, r.maze);
      var award := AwardCollection(w.game, CollectPellet(w.maze, CellCoord(r.player.pos.x), CellCoord(r.player.pos.y)).1,
                                   IsLevelComplete(r.maze), input.now);
      && r.ghosts == chase.0
      && (chase.1 ==> r.game == award.(mode := GameOver))
      && (!chase.1 ==> r.game == award)
    ensures r.game.level == w.game.level
  {
    ChasePhase(CollectPhase(w, input))
  }

  /** The ghost spawn cells in use: as written, or corrected. */
  function SpawnCells(corrected: bool): (cells: seq<(nat, nat)>)
    ensures |cells| == 2
  {
    if corrected then GhostCells else AsWrittenGhostCells
  }

  /** The state-machine part of a frame (main.rs lines 118-131): the clock
      update, then P and SPACE. Corrected, a SPACE that leaves
      LevelComplete also rebuilds the level; as written, only the game
      state changes. */
  function StateStage(w: World, input: FrameInput, corrected: bool): (r: World)
    requires Runnable(w) && MenuInv(w.menu)
    ensures Runnable(r) && r.menu == w.menu
    ensures r.game == HandleInput(Update(w.game, input.now, input.frameTime), input.keys.p, input.keys.space, input.now)
    ensures !(corrected && w.game.mode == LevelComplete && input.keys.space) ==> r == w.(game := r.game)
    ensures corrected && w.game.mode == LevelComplete && input.keys.space ==>
      && r.maze == FreshMaze() && r.player == Spawn(PlayerStartX, PlayerStartY)
      && r.ghosts == SpawnGhosts(w.menu.numGhosts, w.menu.difficulty, SpawnCells(true))
    ensures WorldInv(w) ==> WorldInv(r)
    ensures corrected && WorldInv(w) && GhostsClear(w) ==> GhostsClear(r)
  {
    var g1 := Update(w.game, input.now, input.frameTime);
    var g2 := HandleInput(g1, input.keys.p, input.keys.space, input.now);
    if corrected && g1.mode == LevelComplete && g2.mode == Playing then
      FreshLevelValid(w.(game := g2), corrected);
      FreshLevel(w.(game := g2), SpawnCells(corrected))
    else w.(game := g2)
  }

  /** The menu part of a frame, run only in mode Menu. */
  function MenuStage(w: World, k: Keys, corrected: bool): (r: World)
    requires Runnable(w) && MenuInv(w.menu)
    ensures Runnable(r) && MenuInv(r.menu)
    ensures w.game.mode != Menu ==> r == w
    ensures w.game.mode == Menu ==> r == MenuFrame(w, k, SpawnCells(corrected))
    ensures WorldInv(w) ==> WorldInv(r)
    ensures corrected && WorldInv(w) && GhostsClear(w) ==> GhostsClear(r)
  {
    if w.game.mode == Menu then
      FreshLevelValid(w.(menu := MenuInput(w.menu, k)), corrected);
      MenuFrame(w, k, SpawnCells(corrected))
    else w
  }

  /** The playing part of a frame, run only in mode Playing. */
  function PlayStage(w: World, input: FrameInput): (r: World)
    requires Runnable(w) && MenuInv(w.menu) && UnitHeading(input)
    ensures Runnable(r) && r.menu == w.menu
    ensures w.game.mode != Playing ==> r == w
    ensures w.game.mode == Playing ==> r == PlayFrame(w, input)
    ensures WorldInv(w) ==> WorldInv(r)
    ensures WorldInv(w) && GhostsClear(w) ==> GhostsClear(r)
  {
    if w.game.mode == Playing then
      PlayFramePreserves(w, input);
      PlayFrame(w, input)
    else w
  }

  /** One frame of the loop (main.rs lines 118-235, without the restart
      after a game over and without drawing): the state machine, the menu
      while in Menu, and play while Playing. With `corrected`, a SPACE that
      leaves LevelComplete also rebuilds the level, and the ghosts spawn at
      the corrected cells; without it, this is the loop as written. */
  function FrameWith(w: World, input: FrameInput, corrected: bool): (r: World)
    requires Runnable(w) && MenuInv(w.menu) && UnitHeading(input)
    ensures Runnable(r) && MenuInv(r.menu)
    ensures w.game.mode == Menu ==> r.menu == MenuInput(w.menu, input.keys)
    ensures w.game.mode != Menu ==> r.menu == w.menu
    ensures w.game.mode == GameOver ==> r == w.(game := Update(w.game, input.now, input.frameTime))
    ensures w.game.mode == Paused && !input.keys.p ==> r == w.(game := Update(w.game, input.now, input.frameTime))
    ensures w.game.mode == Playing && !input.keys.p ==>
      r == PlayFrame(w.(game := Update(w.game, input.now, input.frameTime)), input)
    ensures r.game.level == w.game.level
            || (w.game.mode == LevelComplete && input.keys.space && r.game.level == w.game.level + 1)
    ensures WorldInv(w) ==> WorldInv(r)
    ensures corrected && WorldInv(w) && GhostsClear(w) ==> GhostsClear(r)
  {
    var w1 := StateStage(w, input, corrected);
    var w2 := MenuStage(w1, input.keys, corrected);
    PlayStage(w2, input)
  }

  // ----------------------------------------------------------- invariants

  /** Ghost clearance depends only on the walls. */
  lemma GhostsClearSameWalls(a: World, b: World)
    requires Shaped(a.maze.grid) && Shaped(b.maze.grid) && SameWalls(a.maze.grid, b.maze.grid)
    requires a.ghosts == b.ghosts
    ensures GhostsClear(a) <==> GhostsClear(b)
  {
    forall i | 0 <= i < |a.ghosts|
      ensures Collides(a.maze, a.ghosts[i].pos.x, a.ghosts[i].pos.y) == Collides(b.maze, b.ghosts[i].pos.x, b.ghosts[i].pos.y)
    {
      CollidesSameWalls(a.maze, b.maze, a.ghosts[i].pos.x, a.ghosts[i].pos.y);
    }
  }

  /** A playing frame keeps the world invariant, and keeps every ghost out
      of the walls. */
  lemma PlayFramePreserves(w: World, input: FrameInput)
    requires Shaped(w.maze.grid) && UnitHeading(input)
    ensures WorldInv(w) ==> WorldInv(PlayFrame(w, input))
    ensures WorldInv(w) && GhostsClear(w) ==> GhostsClear(PlayFrame(w, input))
  {
    var c := CollectPhase(w, input);
    if WorldInv(w) && GhostsClear(w) {
      GhostsClearSameWalls(w, c);
    }
  }

  /** Ghosts spawned at the corrected cells start outside the walls of any
      maze whose walls are those of the fresh maze. */
  lemma SpawnedGhostsClear(n: nat, d: Difficulty, m: Maze)
    requires n <= 2 && Shaped(m.grid) && SameWalls(FreshMaze().grid, m.grid)
    ensures var gs := SpawnGhosts(n, d, GhostCells);
      forall i :: 0 <= i < n ==> !Collides(m, gs[i].pos.x, gs[i].pos.y)
  {
    FreshMazeGhostHouse();
    var gs := SpawnGhosts(n, d, GhostCells);
    forall i | 0 <= i < n
      ensures !Collides(m, gs[i].pos.x, gs[i].pos.y)
    {
      CollidesSameWalls(FreshMaze(), m, gs[i].pos.x, gs[i].pos.y);
    }
  }

  /** A fresh level is a valid world with its player out of the walls, and
      with the corrected cells its ghosts are out of the walls too. */
  lemma FreshLevelValid(w: World, corrected: bool)
    requires w.menu.numGhosts <= 2
    ensures var r := FreshLevel(w, SpawnCells(corrected));
      && (MenuInv(w.menu) && Inv(w.game) ==> WorldInv(r))
      && (corrected ==> GhostsClear(r))
  {
    if corrected {
      SpawnedGhostsClear(w.menu.numGhosts, w.menu.difficulty, FreshMaze());
    }
  }

  // ------------------------------------------------------------- findings

  /** A coordinate closer than half a cell to the centre of cell index g
      lies in cell g. */
  lemma WithinHalfCell(g: nat, v: real)
    requires Abs(v - CellCentre(g)) < (CellSize as real) / 2.0
    ensures CellCoord(v) == g
  {
    assert (g * CellSize) as real < v < ((g + 1) * CellSize) as real;
  }

  /** A chase step shorter than half a cell, taken from the centre of cell
      (gx, gy), stays in that cell on either axis. */
  lemma ShortStepStaysInCell(gx: nat, gy: nat, target: Vec2, speed: real)
    requires 0.0 <= speed < (CellSize as real) / 2.0
    ensures var c := Spawn(gx, gy).pos;
      && CellCoord(StepX(c, target, speed).x) == gx && CellCoord(StepX(c, target, speed).y) == gy
      && CellCoord(StepY(c, target, speed).x) == gx && CellCoord(StepY(c, target, speed).y) == gy
  {
    var c := Spawn(gx, gy).pos;
    var sx := StepX(c, target, speed);
    var sy := StepY(c, target, speed);
    assert Abs(sx.x - c.x) == speed by {
      if Signum(target.x - c.x) == 1.0 { assert sx.x - c.x == speed; }
      else { assert sx.x - c.x == -speed; }
    }
    assert Abs(sy.y - c.y) == speed by {
      if Signum(target.y - c.y) == 1.0 { assert sy.y - c.y == speed; }
      else { assert sy.y - c.y == -speed; }
    }
    WithinHalfCell(gx, sx.x);
    WithinHalfCell(gy, sy.y);
  }

  /** As written, the first ghost spawns at (10, 13), a Wall cell of the
      maze. */
  lemma RedGhostSpawnsInWall(n: nat, d: Difficulty)
    requires 1 <= n <= 2
    ensures var g := SpawnGhosts(n, d, AsWrittenGhostCells)[0];
      Collides(FreshMaze(), g.pos.x, g.pos.y)
  {
    FreshMazeGhostHouse();
  }

  /** A ghost at the centre of (10, 13) whose step is shorter than half a
      cell cannot leave it: both candidate steps stay inside the Wall cell,
      whatever the target, in any maze with the fresh maze's walls. */
  lemma RedGhostStuck(target: Vec2, speed: real, m: Maze, stored: real)
    requires Shaped(m.grid) && SameWalls(FreshMaze().grid, m.grid)
    requires 0.0 <= speed < (CellSize as real) / 2.0
    ensures var g := Ghost(Spawn(10, 13).pos, stored);
      ChaseStep(g, target, speed, m).pos == g.pos
  {
    FreshWallBelowHouse(m);
    StuckInWallCell(10, 13, target, speed, m, stored);
  }

  /** Every maze with the fresh maze's walls has a Wall at (10, 13). */
  lemma FreshWallBelowHouse(m: Maze)
    requires Shaped(m.grid) && SameWalls(FreshMaze().grid, m.grid)
    ensures GetCell(m, 10, 13) == Wall
  {
    FreshMazeGhostHouse();
  }

  /** A ghost at the centre of a Wall cell, stepping less than half a
      cell, stays where it is. */
  lemma StuckInWallCell(gx: nat, gy: nat, target: Vec2, speed: real, m: Maze, stored: real)
    requires Shaped(m.grid) && GetCell(m, gx, gy) == Wall
    requires 0.0 <= speed < (CellSize as real) / 2.0
    ensures var g := Ghost(Spawn(gx, gy).pos, stored);
      ChaseStep(g, target, speed, m).pos == g.pos
  {
    ShortStepStaysInCell(gx, gy, target, speed);
  }

  /** ... and such a ghost never catches the player: a player within half
      a cell of the centre of (10, 13) on both axes would stand inside that
      Wall cell. */
  lemma RedGhostNeverCatches(player: Vec2, m: Maze, stored: real)
    requires Shaped(m.grid) && SameWalls(FreshMaze().grid, m.grid)
    requires !Collides(m, player.x, player.y)
    ensures !Catches(Ghost(Spawn(10, 13).pos, stored), player)
  {
    FreshMazeGhostHouse();
    CollidesSameWalls(FreshMaze(), m, player.x, player.y);
    if Catches(Ghost(Spawn(10, 13).pos, stored), player) {
      WithinHalfCell(10, player.x);
      WithinHalfCell(13, player.y);
      assert false;
    }
  }

  /** As written, SPACE on the level-complete screen starts the next level
      on the same, already finished maze, so the same frame completes the
      level again: the level number has moved on, the mode is back to
      LevelComplete (or GameOver after a catch), and the maze is still
      complete. The branch of the loop that would rebuild the level never
      runs. */
  lemma NextLevelCompletesAtOnce(w: World, input: FrameInput)
    requires WorldInv(w) && UnitHeading(input)
    requires w.game.mode == LevelComplete && IsLevelComplete(w.maze) && input.keys.space
    ensures var r := FrameWith(w, input, false);
      && r.game.level == w.game.level + 1
      && (r.game.mode == LevelComplete || r.game.mode == GameOver)
      && IsLevelComplete(r.maze)
      && r.maze.pelletsCollected == w.maze.pelletsCollected
      && r.game.score >= w.game.score + (w.game.level + 1) * LevelBonusPerLevel
  {
    var w1 := StateStage(w, input, false);
    assert w1.game == NextLevel(Update(w.game, input.now, input.frameTime), input.now);
    LevelCompleteIffNoPellets(w.maze);
    var c := CollectPhase(w1, input);
    assert c.maze == w.maze;
  }

  /** Corrected, SPACE on the level-complete screen rebuilds the level
      before playing it: the level number has moved on, the maze is fresh
      save at most the one pellet collected this frame, and the game is
      not complete again. */
  lemma NextLevelIsPlayable(w: World, input: FrameInput)
    requires WorldInv(w) && UnitHeading(input)
    requires w.game.mode == LevelComplete && input.keys.space
    ensures var r := FrameWith(w, input, true);
      && r.game.level == w.game.level + 1
      && r.game.mode != LevelComplete
      && !IsLevelComplete(r.maze)
      && r.maze.pelletsCollected <= 1
  {
    var w1 := StateStage(w, input, true);
    assert w1.game == NextLevel(Update(w.game, input.now, input.frameTime), input.now);
    assert w1.maze == FreshMaze() && w1.game.mode == Playing && w1.game.level == w.game.level + 1;
    assert MenuStage(w1, input.keys, true) == w1;
    PlayFreshMaze(w1, input);
  }

  /** A playing frame on a fresh maze keeps the level number, does not
      complete the level, and collects at most one pellet. */
  lemma PlayFreshMaze(w: World, input: FrameInput)
    requires w.maze == FreshMaze() && w.game.mode == Playing && UnitHeading(input)
    ensures var r := PlayFrame(w, input);
      && r.game.level == w.game.level
      && r.game.mode != LevelComplete
      && !IsLevelComplete(r.maze)
      && r.maze.pelletsCollected <= 1
  {
    var c := CollectPhase(w, input);
    FreshMazeSurvivesOneCollection(CellCoord(c.player.pos.x), CellCoord(c.player.pos.y));
  }
}

=== FILE: grid.dfy ===
/** The maze grid (src/maze.rs): a fixed 21 x 25 grid of cells built from
    an ASCII layout, a total cell query that treats everything outside the
    grid as Wall, pellet collection (the grid's only mutator) and the
    level-completion test, plus the index arithmetic of the pixel lookup. */
module Grid {
  import opened Common

  datatype Cell = Wall | Path | Pellet | PowerPellet

  /** World units per cell. */
  const CellSize: int := 32
  const Width: nat := 21
  const Height: nat := 25

  const PelletReward: nat := 10
  const PowerPelletReward: nat := 50

  /** The level layout, one string per row. Row 15 is one character short
      and there are only 21 rows, so the last column of row 15 and rows 21
      to 24 of the grid are never written and stay Wall. */
  const Layout: seq<string> := [
    "#####################",
    "#.........#.........#",
    "#o##.###.#.#.###.##o#",
    "#...................#",
    "#.##.#.#####.#.##.#.#",
    "#....#...#...#....#.#",
    "####.###.#.###.######",
    "   #.#.......#.#     ",
    "####.#.##-##.#.######",
    "#......#   #......  #",
    "####.#.#####.#.######",
    "   #.#.......#.#     ",
    "####.#.#####.#.######",
    "#.........#.........#",
    "#.##.###.#.#.###.##.#",
    "#o.#.....P.....#.o.#",
    "##.#.#.#####.#.#.##.#",
    "#....#...#...#....#.#",
    "#.######.#.######.#.#",
    "#...................#",
    "#####################"
  ]

  /** The grid with its two pellet counters. */
  datatype Maze = Maze(grid: seq<seq<Cell>>, pelletsCollected: nat, totalPellets: nat)

  /** HEIGHT rows of WIDTH cells each, the only shape the constructor builds. */
  ghost predicate Shaped(grid: seq<seq<Cell>>)
  {
    |grid| == Height && forall y :: 0 <= y < |grid| ==> |grid[y]| == Width
  }

  predicate IsPellet(c: Cell)
  {
    c == Pellet || c == PowerPellet
  }

  function PelletValue(c: Cell): nat
  {
    if IsPellet(c) then 1 else 0
  }

  /** The cell a layout character stands for; every unknown character
      (the player marker 'P', the door '-', a space) is Path. */
  function CellOfChar(ch: char): (c: Cell)
    ensures c == Wall <==> ch == '#'
    ensures c == Pellet <==> ch == '.'
    ensures c == PowerPellet <==> ch == 'o'
    ensures c == Path <==> ch != '#' && ch != '.' && ch != 'o'
  {
    match ch
    case '#' => Wall
    case '.' => Pellet
    case 'o' => PowerPellet
    case 'P' => Path
    case _ => Path
  }

  /** What the layout puts at (x, y): Wall wherever the layout has no character. */
  function LayoutCell(layout: seq<string>, x: nat, y: nat): Cell
  {
    if y < |layout| && x < |layout[y]| then CellOfChar(layout[y][x]) else Wall
  }

  /** Number of Pellet and PowerPellet cells in a row. */
  function RowPellets(row: seq<Cell>): nat
  {
    if |row| == 0 then 0 else PelletValue(row[0]) + RowPellets(row[1..])
  }

  /** Number of Pellet and PowerPellet cells in a grid. */
  function GridPellets(grid: seq<seq<Cell>>): nat
  {
    if |grid| == 0 then 0 else RowPellets(grid[0]) + GridPellets(grid[1..])
  }

  /** No Pellet or PowerPellet cell is left anywhere in the grid. */
  ghost predicate NoPelletsLeft(grid: seq<seq<Cell>>)
  {
    forall y, x :: 0 <= y < |grid| && 0 <= x < |grid[y]| ==> !IsPellet(grid[y][x])
  }

  /** Pellet conservation: what was collected plus what remains is what the
      layout held. */
  ghost predicate Conserved(m: Maze)
  {
    m.pelletsCollected + GridPellets(m.grid) == m.totalPellets
  }

  /** The well-formed mazes: the constructor's shape, and conservation. */
  ghost predicate Valid(m: Maze)
  {
    Shaped(m.grid) && Conserved(m)
  }

  /** Two grids of the same shape agree on which cells are Wall. */
  ghost predicate SameWalls(a: seq<seq<Cell>>, b: seq<seq<Cell>>)
    requires Shaped(a) && Shaped(b)
  {
    forall y, x :: 0 <= y < Height && 0 <= x < Width ==> (a[y][x] == Wall <==> b[y][x] == Wall)
  }

  lemma {:induction false} RowPelletsUpdate(row: seq<Cell>, x: nat, c: Cell)
    requires x < |row|
    ensures RowPellets(row[x := c]) + PelletValue(row[x]) == RowPellets(row) + PelletValue(c)
    decreases |row|
  {
    if x > 0 {
      assert row[x := c][1..] == row[1..][x - 1 := c];
      RowPelletsUpdate(row[1..], x - 1, c);
    } else {
      assert row[x := c][1..] == row[1..];
    }
  }

  /** Writing c at (x, y) changes the pellet count by exactly what c adds
      and the old cell removes. */
  lemma {:induction false} GridPelletsUpdate(grid: seq<seq<Cell>>, x: nat, y: nat, c: Cell)
    requires y < |grid| && x < |grid[y]|
    ensures GridPellets(grid[y := grid[y][x := c]]) + PelletValue(grid[y][x])
         == GridPellets(grid) + PelletValue(c)
    decreases |grid|
  {
    var g' := grid[y := grid[y][x := c]];
    if y > 0 {
      assert g'[1..] == grid[1..][y - 1 := grid[1..][y - 1][x := c]];
      GridPelletsUpdate(grid[1..], x, y - 1, c);
    } else {
      assert g'[1..] == grid[1..];
      RowPelletsUpdate(grid[0], x, c);
    }
  }

  lemma {:induction false} RowPelletsZero(row: seq<Cell>)
    ensures RowPellets(row) == 0 <==> forall x :: 0 <= x < |row| ==> !IsPellet(row[x])
    decreases |row|
  {
    if |row| > 0 {
      RowPelletsZero(row[1..]);
      if RowPellets(row) == 0 {
        forall x | 0 <= x < |row| ensures !IsPellet(row[x]) {
          if x > 0 { assert row[x] == row[1..][x - 1]; }
        }
      }
      if forall x :: 0 <= x < |row| ==> !IsPellet(row[x]) {
        forall x | 0 <= x < |row[1..]| ensures !IsPellet(row[1..][x]) {
          assert row[1..][x] == row[x + 1];
        }
      }
    }
  }

  /** The pellet count is zero exactly when no pellet cell is left. */
  lemma {:induction false} GridPelletsZero(grid: seq<seq<Cell>>)
    ensures GridPellets(grid) == 0 <==> NoPelletsLeft(grid)
    decreases |grid|
  {
    if |grid| > 0 {
      GridPelletsZero(grid[1..]);
      RowPelletsZero(grid[0]);
      if GridPellets(grid) == 0 {
        forall y, x | 0 <= y < |grid| && 0 <= x < |grid[y]| ensures !IsPellet(grid[y][x]) {
          if y > 0 { assert grid[y] == grid[1..][y - 1]; }
        }
      }
      if NoPelletsLeft(grid) {
        forall y, x | 0 <= y < |grid[1..]| && 0 <= x < |grid[1..][y]|
          ensures !IsPellet(grid[1..][y][x])
        {
          assert grid[1..][y] == grid[y + 1];
        }
        assert NoPelletsLeft(grid[1..]);
      }
    }
  }

  /** The declarative reading of the constructor: cell (x, y) is what the
      layout has there (Wall where it has nothing), nothing is collected yet,
      and the total is the number of pellet cells. */
  function Parse(layout: seq<string>): (m: Maze)
    ensures Valid(m)
    ensures m.pelletsCollected == 0
    ensures forall y, x :: 0 <= y < Height && 0 <= x < Width ==> m.grid[y][x] == LayoutCell(layout, x, y)
  {
    var grid := seq(Height, y requires 0 <= y < Height => seq(Width, x requires 0 <= x < Width => LayoutCell(layout, x, y)));
    Maze(grid, 0, GridPellets(grid))
  }

  /** The maze every level starts from. */
  function FreshMaze(): (m: Maze)
    ensures Valid(m)
  {
    Parse(Layout)
  }

  /** `Maze::new`: starts from an all-Wall grid and walks the layout row by
      row, character by character, writing each in-range character's cell
      and counting pellets as it goes. */
  method NewMaze(layout: seq<string>) returns (m: Maze)
    ensures Shaped(m.grid)
    ensures forall y, x :: 0 <= y < Height && 0 <= x < Width ==> m.grid[y][x] == LayoutCell(layout, x, y)
    ensures m.pelletsCollected == 0
    ensures m.totalPellets == GridPellets(m.grid)
    ensures m == Parse(layout)
  {
    var grid := seq(Height, _ => seq(Width, _ => Wall));
    var total := 0;
    GridPelletsZero(grid);
    var y := 0;
    while y < |layout|
      invariant 0 <= y <= |layout|
      invariant Shaped(grid)
      invariant forall yy, xx :: 0 <= yy < Height && 0 <= xx < Width ==>
        grid[yy][xx] == (if yy < y then LayoutCell(layout, xx, yy) else Wall)
      invariant total == GridPellets(grid)
    {
      var row := layout[y];
      var x := 0;
      while x < |row|
        invariant 0 <= x <= |row|
        invariant Shaped(grid)
        invariant forall yy, xx :: 0 <= yy < Height && 0 <= xx < Width ==>
          grid[yy][xx] == (if yy < y || (yy == y && xx < x) then LayoutCell(layout, xx, yy) else Wall)
        invariant total == GridPellets(grid)
      {
        if y < Height && x < Width {
          var c := CellOfChar(row[x]);
          if IsPellet(c) {
            total := total + 1;
          }
          GridPelletsUpdate(grid, x, y, c);
          grid := grid[y := grid[y][x := c]];
        }
        x := x + 1;
      }
      y := y + 1;
    }
    m := Maze(grid, 0, total);
    var p := Parse(layout);
    forall yy | 0 <= yy < Height ensures grid[yy] == p.grid[yy] {
      assert forall xx :: 0 <= xx < Width ==> grid[yy][xx] == p.grid[yy][xx];
    }
  }

  /** `get_cell`: total over all indices; everything outside the grid is Wall. */
  function GetCell(m: Maze, x: nat, y: nat): (c: Cell)
    requires Shaped(m.grid)
    ensures x < Width && y < Height ==> c == m.grid[y][x]
    ensures Width <= x || Height <= y ==> c == Wall
  {
    if y < |m.grid| && x < |m.grid[0]| then m.grid[y][x] else Wall
  }

  /** `collect_pellet`: a Pellet yields 10 and a PowerPellet 50, turning the
      cell into Path and counting one more collected pellet; anything else,
      in range or not, yields nothing and changes nothing. */
  function CollectPellet(m: Maze, x: nat, y: nat): (r: (Maze, Option<nat>))
    requires Shaped(m.grid)
    ensures Shaped(r.0.grid) && SameWalls(m.grid, r.0.grid)
    ensures r.0.totalPellets == m.totalPellets
    ensures GetCell(m, x, y) == Pellet ==> r.1 == Some(PelletReward)
    ensures GetCell(m, x, y) == PowerPellet ==> r.1 == Some(PowerPelletReward)
    ensures IsPellet(GetCell(m, x, y)) ==>
      GetCell(r.0, x, y) == Path && r.0.pelletsCollected == m.pelletsCollected + 1
    ensures !IsPellet(GetCell(m, x, y)) ==> r.1 == None && r.0 == m
    ensures forall yy, xx :: 0 <= yy < Height && 0 <= xx < Width && (yy != y || xx != x) ==>
      r.0.grid[yy][xx] == m.grid[yy][xx]
    ensures Conserved(m) ==> Conserved(r.0)
  {
    if y < |m.grid| && x < |m.grid[0]| then
      match m.grid[y][x]
      case Pellet =>
        GridPelletsUpdate(m.grid, x, y, Path);
        (Maze(m.grid[y := m.grid[y][x := Path]], m.pelletsCollected + 1, m.totalPellets), Some(PelletReward))
      case PowerPellet =>
        GridPelletsUpdate(m.grid, x, y, Path);
        (Maze(m.grid[y := m.grid[y][x := Path]], m.pelletsCollected + 1, m.totalPellets), Some(PowerPelletReward))
      case _ => (m, None)
    else
      (m, None)
  }

  /** `is_level_complete`: the collected counter has reached the total. On
      a maze that conserves its pellets, that is exactly when no Pellet or
      PowerPellet cell is left. */
  function IsLevelComplete(m: Maze): (done: bool)
    ensures Conserved(m) ==> (done <==> NoPelletsLeft(m.grid))
  {
    GridPelletsZero(m.grid);
    m.pelletsCollected >= m.totalPellets
  }

  /** A second collection on the same cell yields nothing and changes nothing. */
  lemma CollectIdempotent(m: Maze, x: nat, y: nat)
    requires Shaped(m.grid)
    ensures var m1 := CollectPellet(m, x, y).0; CollectPellet(m1, x, y) == (m1, None)
  {
  }

  /** On a conserving maze the level is complete exactly when no Pellet or
      PowerPellet cell is left. */
  lemma LevelCompleteIffNoPellets(m: Maze)
    requires Valid(m)
    ensures IsLevelComplete(m) <==> NoPelletsLeft(m.grid)
  {
    GridPelletsZero(m.grid);
  }

  /** The short row 15 and the rows past the layout are never written and
      stay Wall. */
  lemma FreshMazeUnreachedWalls()
    ensures GetCell(FreshMaze(), 20, 15) == Wall
    ensures forall y, x :: |Layout| <= y < Height && 0 <= x < Width ==> GetCell(FreshMaze(), x, y) == Wall
  {
    assert |Layout| == 21 && |Layout[15]| == 20;
  }

  /** Known cells of the fresh maze: pellets at (1, 1) and (2, 1), a power
      pellet at (1, 2), and a pellet (not a Wall) at the player's start
      cell (10, 15). */
  lemma FreshMazeCells()
    ensures GetCell(FreshMaze(), 1, 1) == Pellet && GetCell(FreshMaze(), 2, 1) == Pellet
    ensures GetCell(FreshMaze(), 1, 2) == PowerPellet
    ensures GetCell(FreshMaze(), 10, 15) == Pellet
  {
    assert Layout[1][1] == '.' && Layout[1][2] == '.' && Layout[2][1] == 'o' && Layout[15][10] == '.';
  }

  /** The fresh maze holds pellets, so its level is not complete. */
  lemma FreshMazeNotComplete()
    ensures !IsLevelComplete(FreshMaze())
  {
    FreshMazeCells();
    LevelCompleteIffNoPellets(FreshMaze());
  }

  /** The ghost house: (10, 9) is open floor, (10, 11) holds a pellet,
      and (10, 13), just below the house, is Wall. */
  lemma FreshMazeGhostHouse()
    ensures GetCell(FreshMaze(), 10, 9) == Path
    ensures GetCell(FreshMaze(), 10, 11) == Pellet
    ensures GetCell(FreshMaze(), 10, 13) == Wall
  {
    assert Layout[9][10] == ' ' && Layout[11][10] == '.' && Layout[13][10] == '#';
  }

  /** One collection cannot finish a fresh maze: whichever cell is
      collected, one of the pellets at (1, 1) and (2, 1) is left. */
  lemma FreshMazeSurvivesOneCollection(x: nat, y: nat)
    ensures !IsLevelComplete(CollectPellet(FreshMaze(), x, y).0)
  {
    var m := FreshMaze();
    var r := CollectPellet(m, x, y).0;
    FreshMazeCells();
    if x == 1 && y == 1 {
      assert IsPellet(r.grid[1][2]);
    } else {
      assert IsPellet(r.grid[1][1]);
    }
    LevelCompleteIffNoPellets(r);
  }

  /** A newtype for the bytes of an image buffer. */
  newtype byte = b: int | 0 <= b < 256

  datatype Color = Color(r: byte, g: byte, b: byte, a: byte)

  /** The opaque blue returned for every pixel outside the image. */
  const FallbackColor: Color := Color(0, 0, 255, 255)

  /** An RGBA image: `width * height` pixels of four bytes each, row by row. */
  datatype Image = Image(width: nat, height: nat, data: seq<byte>)

  /** For any in-range pixel the four bytes at its index lie in the buffer. */
  lemma PixelIndexInBounds(width: nat, height: nat, x: nat, y: nat)
    requires x < width && y < height
    ensures (y * width + x) * 4 + 3 < width * height * 4
  {
    assert y * width + x < (y + 1) * width;
    assert (y + 1) * width <= height * width by {
      assert y + 1 <= height;
    }
  }

  /** `get_pixel_color`: outside the image it is the blue fallback; inside,
      the four bytes at index `(y * width + x) * 4`. The buffer is the first
      `width * height * 4` bytes of the image data, so the second fallback
      (index past the buffer) can never be taken. */
  function PixelColor(img: Image, x: int, y: int): (c: Color)
    requires |img.data| >= img.width * img.height * 4
    ensures x < 0 || y < 0 || img.width <= x || img.height <= y ==> c == FallbackColor
    ensures 0 <= x < img.width && 0 <= y < img.height ==>
      var i := (y * img.width + x) * 4;
      i + 3 < |img.data| && c == Color(img.data[i], img.data[i + 1], img.data[i + 2], img.data[i + 3])
  {
    if x < 0 || y < 0 || img.width <= x || img.height <= y then FallbackColor
    else
      var dataLen := img.width * img.height * 4;
      var idx := (y * img.width + x) * 4;
      PixelIndexInBounds(img.width, img.height, x, y);
      if idx + 3 >= dataLen then FallbackColor
      else Color(img.data[idx], img.data[idx + 1], img.data[idx + 2], img.data[idx + 3])
  }
}

=== FILE: ray.dfy ===
/** The ray march (src/ray.rs): from an origin, step along a direction in
    fixed half-unit steps until the probe's cell is outside the grid, is a
    Wall, or the distance has passed the safety cap; then derive a texture
    coordinate from the probe's offset into the hit cell.

    The direction is (cos angle, sin angle), supplied by the caller, so no
    trigonometry is modelled. */
module Ray {
  import opened Common
  import opened Grid
  import opened Actor

  /** World units advanced per step. */
  const Step: real := 0.5
  /** The march stops once the distance is past this cap. */
  const MaxDistance: real := 1000.0
  /** The number of steps whose distance first passes the cap. */
  const MaxSteps: nat := 2001

  /** One ray's result: the distance marched, the cell reported as hit and
      the texture coordinate along its face. */
  datatype Intersect = Intersect(distance: real, wallX: nat, wallY: nat, textureCoord: real)

  /** The distance after n steps. */
  function StepDistance(n: nat): real
  {
    n as real * Step
  }

  /** The probe point at a given distance along the ray. */
  function Probe(origin: Vec2, dir: Vec2, distance: real): Vec2
  {
    Vec2(origin.x + dir.x * distance, origin.y + dir.y * distance)
  }

  /** The probe's cell lies outside the grid (negative coordinates count as
      index 0, so only the right and bottom edges can be left). */
  predicate OffGrid(p: Vec2)
  {
    Width <= CellCoord(p.x) || Height <= CellCoord(p.y)
  }

  /** The texture coordinate: the offset of the probe from the hit cell's
      corner along the axis that is NOT the larger one, in cell units,
      reduced to its fractional part. */
  function TextureCoord(target: Vec2, wallX: nat, wallY: nat): (t: real)
    ensures 0.0 <= t < 1.0
    ensures var dx := target.x - (wallX * CellSize) as real;
            var dy := target.y - (wallY * CellSize) as real;
            (Abs(dx) > Abs(dy) ==> t == FracAbs(dy / CellSize as real))
            && (Abs(dx) <= Abs(dy) ==> t == FracAbs(dx / CellSize as real))
  {
    var cellX := (wallX * CellSize) as real;
    var cellY := (wallY * CellSize) as real;
    var dx := target.x - cellX;
    var dy := target.y - cellY;
    FracAbs(if Abs(dx) > Abs(dy) then (target.y - cellY) / CellSize as real
            else (target.x - cellX) / CellSize as real)
  }

  /** The march as a recursive definition, starting at step n. It ends
      between step n and the first step past the distance cap. */
  function March(origin: Vec2, dir: Vec2, m: Maze, n: nat): (hit: Intersect)
    requires Shaped(m.grid)
    requires 1 <= n <= MaxSteps
    ensures StepDistance(n) <= hit.distance <= StepDistance(MaxSteps)
    ensures 0.0 <= hit.textureCoord < 1.0
    decreases MaxSteps - n
  {
    var d := StepDistance(n);
    var t := Probe(origin, dir, d);
    var gx := CellCoord(t.x);
    var gy := CellCoord(t.y);
    if gx >= Width || gy >= Height then Intersect(d, gx, gy, TextureCoord(t, gx, gy))
    else if m.grid[gy][gx] == Wall then Intersect(d, gx, gy, TextureCoord(t, gx, gy))
    else if d > MaxDistance then Intersect(d, 0, 0, TextureCoord(t, 0, 0))
    else March(origin, dir, m, n + 1)
  }

  /** What the march reports, by how it stopped: the distance is a whole
      number of steps; leaving the grid
      or meeting a Wall reports the probe's cell; passing the cap reports
      the initial (0, 0); and every earlier probe lies in an in-range,
      non-Wall cell. */
  lemma {:induction false} MarchFacts(origin: Vec2, dir: Vec2, m: Maze, n: nat)
    requires Shaped(m.grid)
    requires 1 <= n <= MaxSteps
    ensures var hit := March(origin, dir, m, n);
            exists k :: n <= k <= MaxSteps && hit.distance == StepDistance(k)
    ensures var hit := March(origin, dir, m, n);
            var t := Probe(origin, dir, hit.distance);
            && hit.textureCoord == TextureCoord(t, hit.wallX, hit.wallY)
            && (OffGrid(t) ==> hit.wallX == CellCoord(t.x) && hit.wallY == CellCoord(t.y))
            && (!OffGrid(t) && Collides(m, t.x, t.y) ==>
                  hit.wallX == CellCoord(t.x) && hit.wallY == CellCoord(t.y)
                  && hit.wallX < Width && hit.wallY < Height && m.grid[hit.wallY][hit.wallX] == Wall)
            && (!Collides(m, t.x, t.y) ==> MaxDistance < hit.distance && hit.wallX == 0 && hit.wallY == 0)
    ensures var hit := March(origin, dir, m, n);
            forall k :: n <= k && StepDistance(k) < hit.distance ==>
              !Collides(m, Probe(origin, dir, StepDistance(k)).x, Probe(origin, dir, StepDistance(k)).y)
    decreases MaxSteps - n
  {
    var d := StepDistance(n);
    var t := Probe(origin, dir, d);
    if !Collides(m, t.x, t.y) && d <= MaxDistance {
      MarchFacts(origin, dir, m, n + 1);
      var hit := March(origin, dir, m, n);
      assert hit == March(origin, dir, m, n + 1);
      forall k | n <= k && StepDistance(k) < hit.distance
        ensures !Collides(m, Probe(origin, dir, StepDistance(k)).x, Probe(origin, dir, StepDistance(k)).y)
      {
        if k == n {
          assert Probe(origin, dir, StepDistance(k)) == t;
        }
      }
    }
  }

  /** `cast_ray`: the source's loop. It computes the march from the first
      step, so it always ends, at a positive multiple of the step no greater
      than 1000.5, with a texture coordinate in [0, 1). */
  method CastRay(origin: Vec2, dir: Vec2, m: Maze) returns (hit: Intersect)
    requires Shaped(m.grid)
    ensures hit == March(origin, dir, m, 1)
    ensures Step <= hit.distance <= MaxDistance + Step
    ensures 0.0 <= hit.textureCoord < 1.0
  {
    var distance := 0.0;
    var n: nat := 0;
    var wallX: nat := 0;
    var wallY: nat := 0;
    var target := Origin;
    while true
      invariant n <= MaxSteps - 1
      invariant distance == StepDistance(n)
      invariant March(origin, dir, m, 1) == March(origin, dir, m, n + 1)
      decreases MaxSteps - 1 - n
    {
      distance := distance + Step;
      n := n + 1;
      target := Probe(origin, dir, distance);
      assert distance == StepDistance(n) && target == Probe(origin, dir, StepDistance(n));
      var gx := CellCoord(target.x);
      var gy := CellCoord(target.y);
      if gx >= |m.grid[0]| || gy >= |m.grid| {
        wallX, wallY := gx, gy;
        assert March(origin, dir, m, n) == Intersect(distance, wallX, wallY, TextureCoord(target, wallX, wallY));
        break;
      }
      if m.grid[gy][gx] == Wall {
        wallX, wallY := gx, gy;
        assert March(origin, dir, m, n) == Intersect(distance, wallX, wallY, TextureCoord(target, wallX, wallY));
        break;
      }
      if distance > MaxDistance {
        assert March(origin, dir, m, n) == Intersect(distance, wallX, wallY, TextureCoord(target, wallX, wallY));
        break;
      }
      assert March(origin, dir, m, n) == March(origin, dir, m, n + 1);
    }
    hit := Intersect(distance, wallX, wallY, TextureCoord(target, wallX, wallY));
  }
}
